=== FILE: README.md ===
# Receipt processor: validation, consistency, scoring and store

A Dafny model of the core of a small receipt-processing web service. A
client POSTs a receipt as JSON. The service:

1. validates it with a fail-fast chain of checks;
2. checks that the declared total agrees with the sum of the item prices
   to within one cent;
3. stores it under a fresh identifier.

A later GET on that identifier returns the receipt's score under seven
rules.

Money is modelled exactly, as integer cents. A price or total is the text
of an optional `+` or `-` sign, then ASCII digits with an optional decimal
point among them. Either side of the point may be empty but not both, so
`5`, `5.` and `.5` are all amounts. Under that reading:

- rule 2 (whole-dollar total) is `cents % 100 == 0`;
- rule 3 (multiple of 0.25) is `cents % 25 == 0`;
- rule 5 (`ceil(price * 0.2)`) is `(cents + 499) / 500`;
- the `math.isclose(..., abs_tol=0.01)` tolerance is `|total - sum| <= 1`.

Modules, one file each:

- `Wrappers` (`wrappers.dfy`): `Option` and `Result`, with the `:-` early
  return the validator is written in.
- `Numerals` (`numerals.dfy`): decimal digit strings and their values,
  rendering with and without zero padding.
- `Text` (`text.dfy`): Python's `str.strip()`, using the full
  `str.isspace` set by code point. Also the `[a-zA-Z0-9]` count and
  character search.
- `Money` (`money.dfy`): reading an amount as cents. It also renders cents
  the way Python prints a float with at most two decimals.
- `Calendar` (`calendar.dfy`): `YYYY-MM-DD` dates with leap years,
  `HH:MM` times, and their parse/format round trips.
- `Receipts` (`receipts.dfy`): the raw JSON document as the service sees
  it, and the validated `Receipt` and `Item` records.
- `Validation` (`validation.dfy`): `validate_receipt`, check by check,
  with its exact messages.
- `Consistency` (`consistency.dfy`): `process_receipt_data`, the total
  check and its mismatch message.
- `Points` (`points.dfy`): `calculate_points`, as a function. A separate
  loop-based method computes the same score, and its contract proves the
  two agree.
- `Store` (`store.dfy`): the `receipts` map, the POST and GET handlers'
  outcomes, and what a submission does to the map.
- `Scenarios` (`scenarios.dfy`): the receipts of the service's test suite
  and of its documentation, taken through the model.

## Model

| member | source | states |
|---|---|---|
| Validation.Validate | app.py:29-74 | An accepted document yields a well-formed receipt holding exactly the document's fields, read as cents, date and time. Every rejection carries one of the validator's own messages. The checks run in order and the first one that fails names the message: a missing key gives a "Missing required field" message; then a blank retailer gives "Invalid retailer name"; a total that is unreadable or negative gives "Invalid total format"; a bad date gives the purchaseDate message; a bad time gives the purchaseTime message; and an `items` that is not a list of objects gives "Items should be a list of objects". |
| Validation.ValidateAcceptsExactly | app.py:29-74 | The validator accepts a document exactly when it meets every constraint, stated independently of the check order: keys present, retailer not blank, non-negative total, real date, valid time, list of objects, every item acceptable. |
| Validation.ValidateReportsFirstMissingField | app.py:31-34 | When the i-th required key (retailer, purchaseDate, purchaseTime, items, total) is the first one absent, the result is "Missing required field: " followed by that key, whatever else is wrong. |
| Validation.FirstMissing | app.py:31-34 | The key reported is absent and is one of the keys searched; nothing is reported exactly when all keys are present. |
| Validation.ValidateRejectsNegativeTotal | app.py:41-46 | A total that reads as a negative amount is rejected with "Invalid total format", not the "cannot be negative" text, because the inner exception is caught by the handler around it. |
| Validation.ValidateItem | app.py:64-74 | One item is accepted exactly when both keys are present, the description is not blank and the price is a non-negative amount. The item keeps the description and the price read. The rejection message follows the check order. The key message is given exactly when a key is missing. The description message is given exactly when both keys are present and the description is blank. The price message is given exactly when the keys and description pass and the price is unreadable or negative. |
| Validation.ValidateItems | app.py:64-74 | A list of items is accepted exactly when every item is, with one validated item per raw item holding what it says. |
| Validation.ValidateItemsReportsFirstFailure | app.py:64-74 | The first failing item's message is the list's message. |
| Validation.ValidateReportsFirstBadItem | app.py:61-74 | Once the header and list-shape checks pass, the first failing item decides the whole document's message. |
| Validation.ValidateRejectsNegativePrice | app.py:69-74 | An item whose price reads as a negative amount is rejected with "Invalid price format in items" once the earlier items pass. |
| Validation.ObjectsOf | app.py:61-62 | The entries form a list of objects exactly when every entry is an object, and the items are those objects in order. |
| Consistency.CheckTotal | app.py:76-85 | A receipt passes exactly when its total is within one cent of the item sum, and passes unchanged. On rejection, both the calculated sum and the declared total can be read back from the message. With no items, the sum is printed as the integer `0`. |
| Consistency.SumText | app.py:78-83 | The item sum prints as `0` exactly when there are no items, because `sum` of nothing is the integer 0. Whatever the count, the printed sum reads back as the sum and holds no comma. |
| Consistency.ReadMismatchMessage | app.py:82-83 | The mismatch message determines both amounts it prints: reading it back gives the calculated and the provided totals. |
| Consistency.EmptyReceiptTotal | app.py:78-82 | A receipt without items passes only with a total of at most one cent. |
| Money.ParseFormatCents | app.py:78-83 | Every amount rendered as Python prints it reads back as the same number of cents. |
| Money.ParseCents | app.py:42 | A negative amount can only come from text that starts with a minus sign. |
| Money.ParsePaddedCents | app.py:42 | Zeros before the dollars or after the cents do not change the amount. Any such spelling of the printed form, such as `5.50`, `3.00`, `08.5` or `12.000`, reads as the same cents as the shortest form. |
| Money.ParsePaddedNegative | app.py:42 | The same zero-padded spellings behind a minus sign read as the negated amount, so `-3.00` reads as -300 cents. |
| Money.ParseSignedCents | app.py:42 | The sign is honoured in both directions. A minus before an unsigned amount negates it, a plus leaves it unchanged, and the unsigned text reads as itself. |
| Money.FormatCents | app.py:83 | The rendering is Python's shortest form of the amount. It has exactly one decimal point, with digits on both sides and no other characters. There is no leading zero before a dollar part of two or more digits, at most two digits follow the point, and two digits occur only when the second is not zero. With `Money.ParseFormatCents`, this fixes the string: 850 cents prints as `8.5`, not `08.50` or `8.500`. |
| Calendar.ParseDate | app.py:49-52 | Every date the parser accepts is a real calendar date: year 1 to 9999, month 1 to 12, day within the month's length in that year. |
| Calendar.ParseFormatDate | app.py:49-52 | Every real calendar date, written zero-padded, is accepted and read back as itself. |
| Calendar.FormatParseDate | app.py:49-52 | Every accepted date string is exactly the zero-padded form of the date it denotes, so the parser accepts no other spellings. |
| Calendar.DaysInMonth | app.py:50 | February has 29 days exactly in leap years. Months 1, 3, 5, 7, 8, 10 and 12 have 31, months 4, 6, 9 and 11 have 30, and every month has 28 to 31 days, so February has 28 in common years. |
| Calendar.LeapDayAccepted | app.py:50 | February 29th is a valid date exactly in leap years, and is then accepted in written form. |
| Calendar.ParseTime | app.py:54-58 | Every accepted time has an hour below 24 and a minute below 60. |
| Calendar.ParseFormatTime | app.py:54-58 | Every valid time, written zero-padded, is accepted and read back as itself. |
| Calendar.FormatParseTime | app.py:54-58 | Every accepted time string is exactly the zero-padded form of its time. |
| Text.Trim | app.py:37 | The trimmed text is a contiguous part of the original. It is empty exactly when the original is all whitespace; otherwise it starts and ends on non-whitespace. |
| Text.TrimPadded | app.py:148 | Trimming removes exactly the surrounding whitespace: padding a text that starts and ends on non-whitespace and then trimming gives it back. |
| Text.AlnumCount | app.py:132 | The count is at most the length. It equals the length exactly when every character is an ASCII letter or digit, and is zero exactly when none is. |
| Points.CalculatePoints | app.py:128-163 | The score is at least the retailer's letter and digit count plus the item points. The total, date and time rules add at most 91 more. |
| Points.ComputePoints | app.py:128-163 | Accumulating the seven rules one after another, with a scan over the retailer and over the items, gives the same score as the rule-by-rule sum. |
| Points.CountAlnum | app.py:132 | Counting letters and digits one character at a time gives the number of matches of `[a-zA-Z0-9]`. |
| Points.AddDescriptionBonuses | app.py:147-151 | Scanning the items and adding each matching item's bonus gives the rule 5 total. |
| Points.CeilFifth | app.py:150-151 | The bonus is the least whole number of points that is at least a fifth of the price in dollars. |
| Points.WholeDollarIsQuarter | app.py:135-141 | A whole-dollar total is also a multiple of 0.25, so it earns 50 and 25 together. |
| Points.WholeDollarBonus | app.py:134-141 | A whole-dollar total scores at least 75 above the retailer and item points. |
| Points.ItemPointsMonotone | app.py:143-151 | Appending items never lowers the item points; the description points of the added items are added at least. |
| Points.BonusNeedsThreeCharacters | app.py:146-149 | On a validated receipt, a description that matches rule 5 has at least three characters once trimmed. |
| Points.BlankDescriptionWouldMatch | app.py:147-151 | A blank description would match rule 5, since zero is a multiple of 3; validation is what excludes it. |
| Points.AfternoonIgnoresMinutes | app.py:158-161 | Rule 7 depends on the hour alone. |
| Store.Process | app.py:89-108 | A body is accepted exactly when it is a non-empty object that validates and whose total is consistent. An accepted receipt is well formed and holds what the body says. Each rejection carries its stage's message. A non-object or empty body gets "Invalid JSON format". A document that fails validation gets the validator's message. A validated receipt whose total is inconsistent gets the mismatch message for its items and total. |
| Store.Submit | app.py:95-105 | The submission is stored exactly when it is accepted, under the identifier drawn. Only that key is added and no other entry changes. A rejected submission leaves the store as it was and replies with the message. |
| Store.SubmitLeavesOtherLookups | app.py:95-120 | A submission changes no lookup except the one for its own identifier. Every other identifier gets the same reply as before, whether found with the same points or not found. |
| Store.SubmitPreservesInvariant | app.py:95-103 | Every stored receipt stays valid and consistent across any submission. |
| Store.SubmitKeepsEntries | app.py:95-103 | Under a fresh identifier, every existing entry is kept as it was, and the store grows by one exactly when the submission is accepted. |
| Store.SubmitThenGetPoints | app.py:95-120 | A receipt just accepted can be looked up, and its points are its score. |
| Store.SubmitTwice | app.py:95-120 | The same document submitted twice under two identifiers is stored twice with equal scores. |
| Scenarios.TestStoreAccepted | test_app.py:17-35 | The test suite's valid receipt is accepted and denotes the expected record. |
| Scenarios.TestStoreScores49 | test_app.py:97-117 | The test suite's receipt scores 9 + 25 + 5 + 10 = 49. |
| Scenarios.MissingTotalRejected | test_app.py:37-53 | The test suite's document without a total is refused with "Missing required field: total" and nothing is stored. |
| Scenarios.NegativePriceRejected | test_app.py:55-73 | The test suite's document with a price of -3.00 is refused with "Invalid price format in items" and nothing is stored. |
| Scenarios.MismatchRejected | test_app.py:75-95 | The test suite's document with total 9.00 over items of 5.00 and 3.50 is refused, and the message reads back as 8.50 and 9.00. |
| Scenarios.UnknownIdNotFound | test_app.py:119-127 | A lookup of an identifier never issued is answered with "Receipt not found". |
| Scenarios.TargetScores28 | app.py:128-163 | The documented example receipt scores 28. It has five items at Target for 35.35 on 2022-01-01 at 13:01, and one description padded with spaces. |

## Left out

- **HTTP layer.** Flask routing, JSON decoding, `jsonify`, status codes,
  the error-handler decorators and logging are not modelled. A body is
  either an object, given as its typed fields plus a count of other keys,
  or not an object. The replies are `Created`, `ValidationError`, `Found`
  and `NotFound`.
- **Identifiers.** `uuid.uuid4()` is a parameter of `Store.Submit`: the
  caller supplies the identifier. The freshness lemmas assume it is not
  already a key.
- **The unused score at app.py:102.** The POST handler computes a score and
  throws it away. Its only effect is an exception raised while scoring,
  which stops the receipt being stored at app.py:103. Within the
  modelled amounts scoring cannot fail, so the call is not modelled. The
  one way it fails in Python is described under "Overflowing amounts"
  below.
- **What is stored.** The service stores the raw document and re-reads
  its strings when scoring. The model stores the validated `Receipt`,
  which holds the same values.
- **Floating point.** Amounts are exact cents, so these float effects are
  absent:
  - `total.is_integer()` at app.py:136 on a total whose double rounds to
    a whole number. `float("1000000000000000.01")` is the double 1e15,
    so Python adds rule 2's 50 points (and rule 3's 25), while the model
    sees one cent past a whole dollar and adds neither. This happens from
    about 1.4 × 10^14 dollars (2^47);
  - `math.isclose` at a difference of exactly one cent, and its relative
    tolerance for totals above about 10^7;
  - `total % 0.25` on inexact floats;
  - `ceil(price * 0.2)` when the product should be a whole number;
  - the float printing of inexact sums (`0.1 + 0.2` prints as
    `0.30000000000000004`), and of amounts with more than 15 significant
    digits, from about 10^13 dollars. For these `Money.FormatCents` gives
    the exact decimal digits.
- **Sub-cent amounts.** Text with nonzero digits past the second decimal
  (such as `1.005`) reads as no amount here. It is therefore reported as
  a format error, while Python would accept it. Trailing zeros past the
  second decimal are accepted.
- **Other float syntax.** Python's `float()` also accepts `nan`, `inf`,
  exponents, digit underscores, surrounding whitespace and non-ASCII
  decimal digits (such as Arabic-Indic digits). These are outside the
  amount syntax modelled, which takes ASCII digits only.
- **Overflowing amounts.** A digit string too long for a double becomes
  `inf` in `float()`. If such an item earns the rule 5 bonus,
  `math.ceil` at app.py:151 raises `OverflowError` when app.py:102 scores
  the receipt. The POST then answers 500 and stores nothing. The model
  reads the amount exactly and stores the receipt.
- **`strptime` leniency.** The real parser also accepts one-digit months,
  days, hours and minutes, a day padded with a space (`2022-01- 1`), and
  non-ASCII decimal digits. The model accepts only the zero-padded fixed
  width forms in ASCII digits.
- **Dynamic typing.** Every field is a string or absent. A key whose
  value is `null` counts as present at app.py:33, but the model has no
  such value. These Python paths are not modelled:
  - a non-string `retailer` or `shortDescription` (a number, a boolean,
    `null`, an array or an object). The `isinstance(..., str)` tests at app.py:37 and app.py:67
    reject it with a 400 and "Invalid retailer name" or "Invalid
    shortDescription in items";
  - a non-string date or time. `strptime` raises `TypeError`, which
    reaches the 500 handler;
  - a `null`, array or object total or price. `float()` raises `TypeError`,
    which reaches the 500 handler;
  - a JSON number as a total or price, which `float()` accepts directly,
    and a JSON `true` or `false`, which `float()` reads as 1.0 or 0.0.
- Consistency.CheckTotal: does not print a total of `-0.00` (or `-0`) as
  Python's `-0.0`. The total is read as 0 cents, which has no sign, so
  the mismatch message shows `0.0`. Keeping the sign would need a signed
  zero in the validated receipt, used by this message alone.
- **Concurrency** on the global dictionary is not modelled.
- **Unknown key names.** `Validation.HasField` only knows the five
  required keys. Any other key is counted in `extraKeys` and only matters
  for the empty-object check.

## Notes

The "cannot be negative" messages at app.py:44 and app.py:72 are
never returned: the `except ValueError` around each one replaces them with
the format message. The model reproduces that behaviour
(`Validation.ValidateRejectsNegativeTotal`,
`Validation.ValidateRejectsNegativePrice`), and the test suite expects
only the generic "Validation Error" label.

=== FILE: calendar.dfy ===
/** Calendar dates and times of day as `strptime` reads them with the
    formats `%Y-%m-%d` and `%H:%M`, in their zero-padded fixed-width form. */
module Calendar {
  import opened Wrappers
  import opened Numerals

  datatype Date = Date(year: nat, month: nat, day: nat)

  datatype Time = Time(hour: nat, minute: nat)

  /** Gregorian leap years: every fourth year, except centuries not divisible by 400. */
  predicate IsLeapYear(year: nat) {
    year % 4 == 0 && (year % 100 != 0 || year % 400 == 0)
  }

  function DaysInMonth(year: nat, month: nat): (n: nat)
    requires 1 <= month <= 12
    ensures 28 <= n <= 31
    ensures n == 29 <==> month == 2 && IsLeapYear(year)
    ensures n == 31 <==> month in {1, 3, 5, 7, 8, 10, 12}
    ensures n == 30 <==> month in {4, 6, 9, 11}
  {
    if month == 2 then (if IsLeapYear(year) then 29 else 28)
    else if month in {4, 6, 9, 11} then 30
    else 31
  }

  /** A date `datetime` can represent: years 1 through 9999, a real month,
      and a day that exists in that month. */
  predicate ValidDate(d: Date) {
    && 1 <= d.year <= 9999
    && 1 <= d.month <= 12
    && 1 <= d.day <= DaysInMonth(d.year, d.month)
  }

  predicate ValidTime(t: Time) {
    t.hour < 24 && t.minute < 60
  }

  /** `YYYY-MM-DD` with every field zero-padded; `None` for any other text
      or for a day that does not exist. */
  function ParseDate(s: string): (r: Option<Date>)
    ensures r.Some? ==> ValidDate(r.value)
  {
    if |s| == 10 && s[4] == '-' && s[7] == '-'
       && AllDigits(s[..4]) && AllDigits(s[5..7]) && AllDigits(s[8..])
    then
      var d := Date(DigitsValue(s[..4]), DigitsValue(s[5..7]), DigitsValue(s[8..]));
      if ValidDate(d) then Some(d) else None
    else None
  }

  /** `HH:MM`, both fields zero-padded, hour below 24 and minute below 60. */
  function ParseTime(s: string): (r: Option<Time>)
    ensures r.Some? ==> ValidTime(r.value)
  {
    if |s| == 5 && s[2] == ':' && AllDigits(s[..2]) && AllDigits(s[3..]) then
      var t := Time(DigitsValue(s[..2]), DigitsValue(s[3..]));
      if ValidTime(t) then Some(t) else None
    else None
  }

  function FormatDate(d: Date): string
    requires ValidDate(d)
  {
    PadDigits(d.year, 4) + "-" + PadDigits(d.month, 2) + "-" + PadDigits(d.day, 2)
  }

  function FormatTime(t: Time): string
    requires ValidTime(t)
  {
    PadDigits(t.hour, 2) + ":" + PadDigits(t.minute, 2)
  }

  /** Every representable date is accepted in its written form. */
  lemma ParseFormatDate(d: Date)
    requires ValidDate(d)
    ensures ParseDate(FormatDate(d)) == Some(d)
  {
    var s := FormatDate(d);
    assert s[..4] == PadDigits(d.year, 4);
    assert s[5..7] == PadDigits(d.month, 2);
    assert s[8..] == PadDigits(d.day, 2);
  }

  /** An accepted date string is exactly the written form of its date. */
  lemma FormatParseDate(s: string)
    requires ParseDate(s).Some?
    ensures FormatDate(ParseDate(s).value) == s
  {
    var year, month, day := s[..4], s[5..7], s[8..];
    assert ParseDate(s).value == Date(DigitsValue(year), DigitsValue(month), DigitsValue(day));
    assert s == year + "-" + month + "-" + day;
    FormatDateOfFields(year, month, day);
  }

  lemma FormatDateOfFields(year: string, month: string, day: string)
    requires |year| == 4 && |month| == 2 && |day| == 2
    requires AllDigits(year) && AllDigits(month) && AllDigits(day)
    requires ValidDate(Date(DigitsValue(year), DigitsValue(month), DigitsValue(day)))
    ensures FormatDate(Date(DigitsValue(year), DigitsValue(month), DigitsValue(day)))
            == year + "-" + month + "-" + day
  {
    PadDigitsOfValue(year);
    PadDigitsOfValue(month);
    PadDigitsOfValue(day);
  }

  lemma ParseFormatTime(t: Time)
    requires ValidTime(t)
    ensures ParseTime(FormatTime(t)) == Some(t)
  {
    var s := FormatTime(t);
    assert s[..2] == PadDigits(t.hour, 2);
    assert s[3..] == PadDigits(t.minute, 2);
  }

  lemma FormatParseTime(s: string)
    requires ParseTime(s).Some?
    ensures FormatTime(ParseTime(s).value) == s
  {
    var hour, minute := s[..2], s[3..];
    assert ParseTime(s).value == Time(DigitsValue(hour), DigitsValue(minute));
    assert s == hour + ":" + minute;
    FormatTimeOfFields(hour, minute);
  }

  lemma FormatTimeOfFields(hour: string, minute: string)
    requires |hour| == 2 && |minute| == 2 && AllDigits(hour) && AllDigits(minute)
    requires ValidTime(Time(DigitsValue(hour), DigitsValue(minute)))
    ensures FormatTime(Time(DigitsValue(hour), DigitsValue(minute))) == hour + ":" + minute
  {
    PadDigitsOfValue(hour);
    PadDigitsOfValue(minute);
  }

  /** February 29th of a year is accepted exactly when the year is a leap year. */
  lemma LeapDayAccepted(year: nat)
    requires 1 <= year <= 9999
    ensures ValidDate(Date(year, 2, 29)) <==> IsLeapYear(year)
    ensures IsLeapYear(year) ==> ParseDate(FormatDate(Date(year, 2, 29))) == Some(Date(year, 2, 29))
  {
    if IsLeapYear(year) {
      ParseFormatDate(Date(year, 2, 29));
    }
  }
}

=== FILE: consistency.dfy ===
/** The total-consistency check: the declared total must lie within one
    cent of the sum of the item prices. */
module Consistency {
  import opened Wrappers
  import opened Text
  import opened Money
  import opened Receipts

  const MismatchOpening: string := "Total mismatch: calculated total is "
  const MismatchJoin: string := ", but provided total is "

  /** How the item sum prints. `sum` over no items is the integer `0`,
      printed without a decimal point; over one or more items it is a
      float, printed as `FormatCents` does. Either way it reads back as
      the sum and holds no comma. */
  function SumText(items: seq<Item>): (s: string)
    ensures s == "0" <==> |items| == 0
    ensures ParseCents(s) == Some(PriceSum(items) as int)
    ensures forall i :: 0 <= i < |s| ==> s[i] != ','
  {
    if |items| == 0 then
      assert ParseUnsignedCents("0") == Some(0) by {
        assert "0"[..1] == "0";
      }
      "0"
    else
      ParseFormatCents(PriceSum(items));
      FormatCents(PriceSum(items))
  }

  /** The rejection message: the item sum as `SumText` prints it and the
      declared total as Python prints a float. */
  function MismatchMessage(items: seq<Item>, provided: nat): string {
    MismatchOpening + (SumText(items) + MismatchJoin + FormatCents(provided))
  }

  /** The declared total is within the tolerance of 0.01 of the item sum. */
  predicate Consistent(r: Receipt) {
    -1 <= r.total - PriceSum(r.items) <= 1
  }

  /** Passes the receipt through unchanged when it is consistent, and
      otherwise names both amounts in the message. */
  function CheckTotal(r: Receipt): (res: Result<Receipt, string>)
    ensures res.Success? <==> Consistent(r)
    ensures res.Success? ==> res.value == r
    ensures res.Failure? ==> ReadMismatch(res.error) == Some((PriceSum(r.items) as int, r.total as int))
    ensures res.Failure? && |r.items| == 0 ==> res.error == MismatchOpening + ("0" + MismatchJoin + FormatCents(r.total))
  {
    if Consistent(r) then Success(r)
    else
      ReadMismatchMessage(r.items, r.total);
      Failure(MismatchMessage(r.items, r.total))
  }

  /** Recovers the calculated and provided totals from a mismatch message. */
  function ReadMismatch(message: string): Option<(int, int)> {
    if |message| < |MismatchOpening| || message[..|MismatchOpening|] != MismatchOpening then None
    else ReadAmounts(message[|MismatchOpening|..])
  }

  /** Reads `<amount>, but provided total is <amount>`. */
  function ReadAmounts(rest: string): Option<(int, int)> {
    var comma := IndexOf(rest, ',');
    if comma + |MismatchJoin| > |rest| || rest[comma..comma + |MismatchJoin|] != MismatchJoin then None
    else
      match (ParseCents(rest[..comma]), ParseCents(rest[comma + |MismatchJoin|..]))
      case (Some(calculated), Some(provided)) => Some((calculated, provided))
      case _ => None
  }

  /** Both amounts can be read back from the message that names them. */
  lemma ReadMismatchMessage(items: seq<Item>, provided: nat)
    ensures ReadMismatch(MismatchMessage(items, provided)) == Some((PriceSum(items) as int, provided as int))
  {
    ReadAfterOpening(SumText(items) + MismatchJoin + FormatCents(provided));
    ReadJoinedAmounts(items, provided);
  }

  /** A message is read by dropping its opening and reading the amounts. */
  lemma ReadAfterOpening(rest: string)
    ensures ReadMismatch(MismatchOpening + rest) == ReadAmounts(rest)
  {
    var message := MismatchOpening + rest;
    assert message[..|MismatchOpening|] == MismatchOpening;
    assert message[|MismatchOpening|..] == rest;
  }

  /** Two rendered amounts around the joining phrase are read back. */
  lemma ReadJoinedAmounts(items: seq<Item>, provided: nat)
    ensures ReadAmounts(SumText(items) + MismatchJoin + FormatCents(provided))
            == Some((PriceSum(items) as int, provided as int))
  {
    SplitAtJoin(SumText(items), FormatCents(provided));
    ParseFormatCents(provided);
  }

  /** The first comma after the opening is the one that starts the joining
      phrase, because a rendered amount holds no comma. */
  lemma SplitAtJoin(first: string, second: string)
    requires forall i :: 0 <= i < |first| ==> first[i] != ','
    ensures var rest := first + MismatchJoin + second;
      && IndexOf(rest, ',') == |first|
      && rest[..|first|] == first
      && rest[|first|..|first| + |MismatchJoin|] == MismatchJoin
      && rest[|first| + |MismatchJoin|..] == second
  {
    var rest := first + MismatchJoin + second;
    assert MismatchJoin == [','] + MismatchJoin[1..];
    assert rest == first + [','] + (MismatchJoin[1..] + second);
    IndexOfAfter(first, ',', MismatchJoin[1..] + second);
  }

  /** With no items the sum is zero, so only a total of at most one cent passes. */
  lemma EmptyReceiptTotal(r: Receipt)
    requires |r.items| == 0
    ensures CheckTotal(r).Success? <==> r.total <= 1
  {
  }
}

=== FILE: money.dfy ===
/** Dollar amounts as exact integer cents: reading the decimal text that
    `float()` is given, and writing an amount the way Python prints a float
    (`8.5`, `9.0`, `0.01`). */
module Money {
  import opened Wrappers
  import opened Numerals
  import opened Text

  /** Digits past the cents place are all zeros. */
  predicate NoSubCents(fraction: string) {
    forall i :: 2 <= i < |fraction| ==> fraction[i] == '0'
  }

  /** The cents denoted by the first two digits after the decimal point. */
  function FractionCents(fraction: string): (c: nat)
    requires AllDigits(fraction)
    ensures c < 100
  {
    (if |fraction| >= 1 then 10 * DigitValue(fraction[0]) else 0)
    + (if |fraction| >= 2 then DigitValue(fraction[1]) else 0)
  }

  /** An unsigned decimal `digits[.digits]` (either side may be empty, not
      both) in cents; `None` when malformed or finer than a cent. */
  function ParseUnsignedCents(s: string): (r: Option<nat>)
    ensures r.Some? ==> |s| > 0 && (IsDigit(s[0]) || s[0] == '.')
  {
    var dot := IndexOf(s, '.');
    var whole := s[..dot];
    var fraction := if dot < |s| then s[dot + 1..] else "";
    if !AllDigits(whole) || !AllDigits(fraction) || |whole| + |fraction| == 0 then None
    else if !NoSubCents(fraction) then None
    else Some(100 * DigitsValue(whole) + FractionCents(fraction))
  }

  /** The value of `float(s)` in cents, for an optionally signed decimal.
      A negative value comes only from a leading minus sign. */
  function ParseCents(s: string): (r: Option<int>)
    ensures r.Some? && r.value < 0 ==> |s| > 0 && s[0] == '-'
  {
    if |s| > 0 && s[0] == '-' then
      match ParseUnsignedCents(s[1..])
      case Some(c) => Some(-(c as int))
      case None => None
    else if |s| > 0 && s[0] == '+' then ParseUnsignedCents(s[1..])
    else ParseUnsignedCents(s)
  }

  /** A sign in front of an unsigned amount is honoured: a minus negates
      it and a plus leaves it as it is. */
  lemma ParseSignedCents(t: string)
    requires ParseUnsignedCents(t).Some?
    ensures ParseCents(['-'] + t) == Some(-(ParseUnsignedCents(t).value as int))
    ensures ParseCents(['+'] + t) == Some(ParseUnsignedCents(t).value as int)
    ensures ParseCents(t) == Some(ParseUnsignedCents(t).value as int)
  {
    assert (['-'] + t)[1..] == t;
    assert (['+'] + t)[1..] == t;
  }

  /** The one or two digits Python prints after the point for `f` cents. */
  function FractionDigits(f: nat): (s: string)
    requires f < 100
    ensures 1 <= |s| <= 2 && AllDigits(s)
    ensures NoSubCents(s) && FractionCents(s) == f
    ensures |s| == 2 ==> s[1] != '0'
  {
    if f % 10 == 0 then [DigitChar(f / 10)] else [DigitChar(f / 10), DigitChar(f % 10)]
  }

  /** `repr(c / 100)`: the dollars, a point, then the cents without a
      trailing zero (but at least one digit). */
  function FormatCents(c: nat): (s: string)
    ensures |s| >= 3 && IsDigit(s[0])
    ensures forall i :: 0 <= i < |s| ==> IsDigit(s[i]) || s[i] == '.'
    ensures var dot := IndexOf(s, '.');
      && 0 < dot < |s| - 1 && AllDigits(s[..dot]) && AllDigits(s[dot + 1..])
    ensures var dot := IndexOf(s, '.');
      && |s| - dot - 1 <= 2
      && (dot > 1 ==> s[0] != '0')
      && (|s| - dot - 1 == 2 ==> s[|s| - 1] != '0')
  {
    var whole := NatToDigits(c / 100);
    var fraction := FractionDigits(c % 100);
    IndexOfAfter(whole, '.', fraction);
    assert (whole + "." + fraction)[..|whole|] == whole;
    assert (whole + "." + fraction)[|whole| + 1..] == fraction;
    whole + "." + fraction
  }

  /** Printing an amount and reading it back gives the same amount. */
  lemma ParseFormatCents(c: nat)
    ensures ParseCents(FormatCents(c)) == Some(c)
  {
    var whole := NatToDigits(c / 100);
    var fraction := FractionDigits(c % 100);
    var s := FormatCents(c);
    assert s == whole + ['.'] + fraction;
    IndexOfAfter(whole, '.', fraction);
    assert s[..|whole|] == whole;
    assert s[|whole| + 1..] == fraction;
  }

  /** Zeros before the dollars and after the cents do not change the
      amount: `08.50`, `8.500` and `0008.5000` all read as `8.5` does. */
  lemma ParsePaddedCents(c: nat, before: string, after: string)
    requires AllZeros(before) && AllZeros(after)
    ensures ParseCents(before + FormatCents(c) + after) == Some(c as int)
  {
    var unsigned := before + FormatCents(c) + after;
    PaddedUnsigned(c, before, after);
    assert IsDigit(unsigned[0]);
  }

  /** The same spellings behind a minus sign read as the negated amount,
      as `-3.00` does. */
  lemma ParsePaddedNegative(c: nat, before: string, after: string)
    requires AllZeros(before) && AllZeros(after)
    ensures ParseCents(['-'] + (before + FormatCents(c) + after)) == Some(-(c as int))
  {
    PaddedUnsigned(c, before, after);
    NegatedCents(before + FormatCents(c) + after, c);
  }

  lemma NegatedCents(unsigned: string, c: nat)
    requires ParseUnsignedCents(unsigned) == Some(c)
    ensures ParseCents(['-'] + unsigned) == Some(-(c as int))
  {
    assert (['-'] + unsigned)[1..] == unsigned;
  }

  /** The unsigned reading of a zero-padded rendering. */
  lemma PaddedUnsigned(c: nat, before: string, after: string)
    requires AllZeros(before) && AllZeros(after)
    ensures ParseUnsignedCents(before + FormatCents(c) + after) == Some(c)
  {
    var whole := NatToDigits(c / 100);
    var fraction := FractionDigits(c % 100);
    FormatCentsParts(c);
    Regroup(before, whole, fraction, after);
    LeadingZerosValue(before, whole);
    TrailingZerosCents(fraction, after);
    UnsignedAroundPoint(before + whole, fraction + after, c);
  }

  /** The rendering is the dollars, a point and the fraction digits. */
  lemma FormatCentsParts(c: nat)
    ensures FormatCents(c) == NatToDigits(c / 100) + ['.'] + FractionDigits(c % 100)
  {
  }

  /** Padding around a point-separated text pads its two sides. */
  lemma Regroup(before: string, whole: string, fraction: string, after: string)
    ensures before + (whole + ['.'] + fraction) + after == (before + whole) + ['.'] + (fraction + after)
  {
  }

  /** Zeros after a one- or two-digit fraction add no cents. */
  lemma TrailingZerosCents(fraction: string, zeros: string)
    requires 1 <= |fraction| <= 2 && AllDigits(fraction) && AllZeros(zeros)
    ensures AllDigits(fraction + zeros) && NoSubCents(fraction + zeros)
    ensures FractionCents(fraction + zeros) == FractionCents(fraction)
  {
  }

  /** Text with a point between two digit strings reads as the dollars
      before it and the cents after it. */
  lemma UnsignedAroundPoint(whole: string, fraction: string, value: int)
    requires AllDigits(whole) && AllDigits(fraction) && NoSubCents(fraction)
    requires |whole| > 0
    requires value == 100 * DigitsValue(whole) + FractionCents(fraction)
    ensures ParseUnsignedCents(whole + ['.'] + fraction) == Some(value)
  {
    var s := whole + ['.'] + fraction;
    var dot := IndexOf(s, '.');
    IndexOfAfter(whole, '.', fraction);
    assert dot == |whole| < |s|;
    assert s[..dot] == whole;
    assert s[dot + 1..] == fraction;
    assert |s[..dot]| + |s[dot + 1..]| > 0;
  }
}

=== FILE: numerals.dfy ===
/** Decimal digit strings: reading them as numbers, and writing numbers
    as canonical or fixed-width digit strings. */
module Numerals {

  predicate IsDigit(c: char) {
    '0' <= c <= '9'
  }

  predicate AllDigits(s: string) {
    forall i :: 0 <= i < |s| ==> IsDigit(s[i])
  }

  function DigitValue(c: char): (d: nat)
    requires IsDigit(c)
    ensures d < 10
  {
    c as int - '0' as int
  }

  function DigitChar(d: nat): (c: char)
    requires d < 10
    ensures IsDigit(c) && DigitValue(c) == d
  {
    (d + '0' as int) as char
  }

  function Pow10(w: nat): (p: nat)
    ensures p >= 1
  {
    if w == 0 then 1 else 10 * Pow10(w - 1)
  }

  /** The number a string of decimal digits denotes (most significant first). */
  function DigitsValue(s: string): nat
    requires AllDigits(s)
  {
    if |s| == 0 then 0 else 10 * DigitsValue(s[..|s| - 1]) + DigitValue(s[|s| - 1])
  }

  /** Appending a digit multiplies the value by ten and adds the digit. */
  lemma DigitsValueSnoc(s: string, c: char)
    requires AllDigits(s) && IsDigit(c)
    ensures AllDigits(s + [c]) && DigitsValue(s + [c]) == 10 * DigitsValue(s) + DigitValue(c)
  {
    assert (s + [c])[..|s|] == s;
  }

  lemma {:induction false} DigitsValueBound(s: string)
    requires AllDigits(s)
    ensures DigitsValue(s) < Pow10(|s|)
  {
    if |s| > 0 {
      DigitsValueBound(s[..|s| - 1]);
    }
  }

  /** The canonical decimal rendering of `n`: no leading zeros, and it reads back as `n`. */
  function NatToDigits(n: nat): (s: string)
    ensures |s| >= 1 && AllDigits(s)
    ensures |s| > 1 ==> s[0] != '0'
    ensures DigitsValue(s) == n
  {
    if n < 10 then [DigitChar(n)]
    else
      var prefix := NatToDigits(n / 10);
      var s := prefix + [DigitChar(n % 10)];
      assert s[..|s| - 1] == prefix;
      s
  }

  /** Every character is the digit zero. */
  predicate AllZeros(s: string) {
    forall i :: 0 <= i < |s| ==> s[i] == '0'
  }

  /** A string of zeros denotes zero. */
  lemma {:induction false} ZerosValue(zeros: string)
    requires AllZeros(zeros)
    ensures AllDigits(zeros) && DigitsValue(zeros) == 0
  {
    if |zeros| > 0 {
      ZerosValue(zeros[..|zeros| - 1]);
    }
  }

  /** Leading zeros do not change the value of a digit string. */
  lemma {:induction false} LeadingZerosValue(zeros: string, s: string)
    requires AllZeros(zeros) && AllDigits(s)
    ensures AllDigits(zeros + s) && DigitsValue(zeros + s) == DigitsValue(s)
  {
    if |s| == 0 {
      assert zeros + s == zeros;
      ZerosValue(zeros);
    } else {
      var padded := zeros + s;
      assert padded[..|padded| - 1] == zeros + s[..|s| - 1];
      assert padded[|padded| - 1] == s[|s| - 1];
      LeadingZerosValue(zeros, s[..|s| - 1]);
    }
  }

  /** `n` written with exactly `w` digits, padded with leading zeros. */
  function PadDigits(n: nat, w: nat): (s: string)
    requires n < Pow10(w)
    ensures |s| == w && AllDigits(s)
    ensures DigitsValue(s) == n
  {
    if w == 0 then ""
    else
      var prefix := PadDigits(n / 10, w - 1);
      var s := prefix + [DigitChar(n % 10)];
      assert s[..|s| - 1] == prefix;
      s
  }

  /** Fixed-width digit strings are determined by their value. */
  lemma {:induction false} PadDigitsOfValue(s: string)
    requires AllDigits(s)
    ensures DigitsValue(s) < Pow10(|s|)
    ensures PadDigits(DigitsValue(s), |s|) == s
  {
    DigitsValueBound(s);
    if |s| > 0 {
      var prefix := s[..|s| - 1];
      PadDigitsOfValue(prefix);
      assert DigitsValue(s) / 10 == DigitsValue(prefix);
      assert DigitsValue(s) % 10 == DigitValue(s[|s| - 1]);
      assert s == prefix + [s[|s| - 1]];
    }
  }
}

=== FILE: points.dfy ===
/** The points calculator: seven independent rules whose contributions are
    added up. Amounts are in cents, so "0.2 times the price, rounded up" is
    the price divided by 500, rounded up. */
module Points {
  import opened Text
  import opened Calendar
  import opened Receipts

  /** Rule 1: one point per ASCII letter or digit of the retailer name. */
  function RetailerPoints(retailer: string): nat {
    AlnumCount(retailer)
  }

  /** Rule 2: 50 points for a whole-dollar total. */
  function RoundDollarPoints(total: nat): nat {
    if total % 100 == 0 then 50 else 0
  }

  /** Rule 3: 25 points for a total that is a multiple of 0.25. */
  function QuarterPoints(total: nat): nat {
    if total % 25 == 0 then 25 else 0
  }

  /** A whole-dollar total is always a multiple of 0.25 too, so rules 2 and
      3 together give it 75 points. */
  lemma WholeDollarIsQuarter(total: nat)
    requires total % 100 == 0
    ensures total % 25 == 0 && RoundDollarPoints(total) + QuarterPoints(total) == 75
  {
    var dollars := total / 100;
    assert total == 25 * (4 * dollars);
  }

  /** Rule 4: 5 points for every complete pair of items. */
  function PairPoints(count: nat): nat {
    (count / 2) * 5
  }

  /** `ceil(cents / 500)`: the least whole number of points worth at least
      a fifth of the price in dollars. */
  function CeilFifth(cents: nat): (p: nat)
    ensures 500 * p >= cents
    ensures p > 0 ==> 500 * (p - 1) < cents
  {
    (cents + 499) / 500
  }

  /** Rule 5 for one item: a fifth of its price, rounded up, when its
      trimmed description length is a multiple of 3. */
  function DescriptionBonus(it: Item): nat {
    if |Trim(it.shortDescription)| % 3 == 0 then CeilFifth(it.price) else 0
  }

  /** Rule 5 over the whole list. */
  function DescriptionPoints(items: seq<Item>): nat {
    SumBy(items, DescriptionBonus)
  }

  /** Rule 6: 6 points for an odd day of the month. */
  function OddDayPoints(date: Date): nat {
    if date.day % 2 != 0 then 6 else 0
  }

  /** Rule 7: 10 points for an hour from 14 up to but excluding 16. */
  function AfternoonPoints(time: Time): nat {
    if 14 <= time.hour < 16 then 10 else 0
  }

  /** Rule 5 over a list is the first item's bonus plus the rest's. */
  lemma DescriptionPointsCons(first: Item, rest: seq<Item>)
    ensures DescriptionPoints([first] + rest) == DescriptionBonus(first) + DescriptionPoints(rest)
  {
    assert ([first] + rest)[1..] == rest;
  }

  /** Adding an item at the end adds its bonus. */
  lemma DescriptionPointsSnoc(items: seq<Item>, last: Item)
    ensures DescriptionPoints(items + [last]) == DescriptionPoints(items) + DescriptionBonus(last)
  {
    SumByAppend(items, [last], DescriptionBonus);
    assert [last][1..] == [];
  }

  /** Extending a prefix of the list by one item adds that item's bonus. */
  lemma DescriptionPointsPrefix(items: seq<Item>, i: nat)
    requires i < |items|
    ensures DescriptionPoints(items[..i + 1]) == DescriptionPoints(items[..i]) + DescriptionBonus(items[i])
  {
    assert items[..i + 1] == items[..i] + [items[i]];
    DescriptionPointsSnoc(items[..i], items[i]);
  }

  /** The points of the item list: rules 4 and 5. */
  function ItemPoints(items: seq<Item>): nat {
    PairPoints(|items|) + DescriptionPoints(items)
  }

  /** The score of a receipt: the seven contributions added up. It is at
      least the retailer's letter and digit count plus the item points, and
      the total and the date and time add at most 75 + 6 + 10 more. */
  function CalculatePoints(r: Receipt): (p: nat)
    ensures p >= AlnumCount(r.retailer) + ItemPoints(r.items)
    ensures p <= AlnumCount(r.retailer) + ItemPoints(r.items) + 91
  {
    RetailerPoints(r.retailer)
    + RoundDollarPoints(r.total)
    + QuarterPoints(r.total)
    + PairPoints(|r.items|)
    + DescriptionPoints(r.items)
    + OddDayPoints(r.purchaseDate)
    + AfternoonPoints(r.purchaseTime)
  }

  /** A whole-dollar total earns both the round-dollar and the quarter bonus. */
  lemma WholeDollarBonus(r: Receipt)
    requires r.total % 100 == 0
    ensures CalculatePoints(r) >= AlnumCount(r.retailer) + ItemPoints(r.items) + 75
  {
    WholeDollarIsQuarter(r.total);
  }

  /** Rule 1 as a scan: counts the matches of `[a-zA-Z0-9]` one character at a time. */
  method CountAlnum(s: string) returns (n: nat)
    ensures n == AlnumCount(s)
  {
    n := 0;
    var k := 0;
    while k < |s|
      invariant 0 <= k <= |s|
      invariant n == AlnumCount(s[..k])
    {
      AlnumCountAppend(s[..k], [s[k]]);
      assert s[..k + 1] == s[..k] + [s[k]];
      if IsAsciiAlnum(s[k]) {
        n := n + 1;
      }
      k := k + 1;
    }
    assert s[..k] == s;
  }

  /** Rule 5 as a scan over the items, adding each matching item's bonus. */
  method AddDescriptionBonuses(items: seq<Item>) returns (n: nat)
    ensures n == DescriptionPoints(items)
  {
    n := 0;
    var i := 0;
    while i < |items|
      invariant 0 <= i <= |items|
      invariant n == DescriptionPoints(items[..i])
    {
      DescriptionPointsPrefix(items, i);
      var length := |Trim(items[i].shortDescription)|;
      if length % 3 == 0 {
        n := n + CeilFifth(items[i].price);
      }
      i := i + 1;
    }
    assert items[..i] == items;
  }

  /** The score accumulated rule by rule in the order the rules are listed;
      it agrees with `CalculatePoints`. */
  method ComputePoints(r: Receipt) returns (points: nat)
    ensures points == CalculatePoints(r)
  {
    points := CountAlnum(r.retailer);
    if r.total % 100 == 0 {
      points := points + 50;
    }
    if r.total % 25 == 0 {
      points := points + 25;
    }
    points := points + (|r.items| / 2) * 5;
    var bonuses := AddDescriptionBonuses(r.items);
    points := points + bonuses;
    if r.purchaseDate.day % 2 != 0 {
      points := points + 6;
    }
    if 14 <= r.purchaseTime.hour < 16 {
      points := points + 10;
    }
  }

  /** Adding items to a receipt never lowers the points its items earn. */
  lemma ItemPointsMonotone(items: seq<Item>, more: seq<Item>)
    ensures ItemPoints(items + more) >= ItemPoints(items)
    ensures ItemPoints(items + more) >= ItemPoints(items) + DescriptionPoints(more)
  {
    SumByAppend(items, more, DescriptionBonus);
  }

  /** On a validated receipt, rule 5 only fires for descriptions of at least
      three characters once trimmed: blank descriptions were rejected. */
  lemma BonusNeedsThreeCharacters(r: Receipt, i: nat)
    requires WellFormed(r) && i < |r.items|
    requires |Trim(r.items[i].shortDescription)| % 3 == 0
    ensures |Trim(r.items[i].shortDescription)| >= 3
  {
  }

  /** Without validation a blank description would match rule 5, since
      a trimmed length of zero is a multiple of 3. */
  lemma BlankDescriptionWouldMatch(description: string, price: nat)
    requires forall i :: 0 <= i < |description| ==> IsSpace(description[i])
    ensures DescriptionBonus(Item(description, price)) == CeilFifth(price)
  {
  }

  /** Rule 7 looks at the hour only. */
  lemma AfternoonIgnoresMinutes(hour: nat, m1: nat, m2: nat)
    ensures AfternoonPoints(Time(hour, m1)) == AfternoonPoints(Time(hour, m2))
  {
  }
}

=== FILE: receipts.dfy ===
/** The receipt document as submitted (fields may be absent), and the
    typed receipt a document becomes once it has been validated. */
module Receipts {
  import opened Wrappers
  import opened Text
  import opened Calendar

  /** An item object as submitted; a key that is absent is `None`. */
  datatype RawItem = RawItem(shortDescription: Option<string>, price: Option<string>)

  /** One element of the submitted `items` list. */
  datatype RawEntry = ItemObject(fields: RawItem) | NotAnObject

  /** The submitted `items` value: a list, or some other JSON value. */
  datatype RawItems = ItemList(entries: seq<RawEntry>) | NotAList

  /** A submitted receipt object. `extraKeys` counts the keys it has
      besides the five the service reads. */
  datatype RawReceipt = RawReceipt(
    retailer: Option<string>,
    purchaseDate: Option<string>,
    purchaseTime: Option<string>,
    items: Option<RawItems>,
    total: Option<string>,
    extraKeys: nat)

  /** A validated item; the price is in cents. */
  datatype Item = Item(shortDescription: string, price: nat)

  /** A validated receipt; the total is in cents. */
  datatype Receipt = Receipt(
    retailer: string,
    purchaseDate: Date,
    purchaseTime: Time,
    items: seq<Item>,
    total: nat)

  /** What validation guarantees about a receipt's fields. */
  predicate WellFormed(r: Receipt) {
    && NonBlank(r.retailer)
    && ValidDate(r.purchaseDate)
    && ValidTime(r.purchaseTime)
    && forall i :: 0 <= i < |r.items| ==> NonBlank(r.items[i].shortDescription)
  }

  /** `f` summed over `xs`, first element first. */
  function SumBy<T>(xs: seq<T>, f: T -> nat): nat {
    if |xs| == 0 then 0 else f(xs[0]) + SumBy(xs[1..], f)
  }

  /** Summing over a concatenation adds the two sums. */
  lemma {:induction false} SumByAppend<T>(xs: seq<T>, ys: seq<T>, f: T -> nat)
    ensures SumBy(xs + ys, f) == SumBy(xs, f) + SumBy(ys, f)
  {
    if |xs| == 0 {
      assert xs + ys == ys;
    } else {
      assert (xs + ys)[0] == xs[0];
      assert (xs + ys)[1..] == xs[1..] + ys;
      SumByAppend(xs[1..], ys, f);
    }
  }

  function ItemPrice(it: Item): nat {
    it.price
  }

  /** Sum of the item prices, in cents. */
  function PriceSum(items: seq<Item>): nat {
    SumBy(items, ItemPrice)
  }
}

=== FILE: scenarios.dfy ===
/** Concrete receipts from the service's tests and documentation, taken
    through the model. */
module Scenarios {
  import opened Wrappers
  import opened Numerals
  import opened Text
  import opened Money
  import opened Calendar
  import opened Receipts
  import opened Validation
  import opened Consistency
  import opened Points
  import opened Store

  function RawItemOf(description: string, price: string): RawItem {
    RawItem(Some(description), Some(price))
  }

  /** The receipt the tests submit: two items, total 8.50, 14:30 on 2025-02-24. */
  function TestStoreDoc(): RawReceipt {
    RawReceipt(
      Some("Test Store"), Some("2025-02-24"), Some("14:30"),
      Some(ItemList([ItemObject(RawItemOf("item1", "5.50")), ItemObject(RawItemOf("item2", "3.00"))])),
      Some("8.50"), 0)
  }

  function TestStoreReceipt(): Receipt {
    Receipt("Test Store", Date(2025, 2, 24), Time(14, 30),
            [Item("item1", 550), Item("item2", 300)], 850)
  }

  /** A date assembled from its three digit fields parses to their values. */
  lemma ParseDateOfFields(year: string, month: string, day: string)
    requires |year| == 4 && |month| == 2 && |day| == 2
    requires AllDigits(year) && AllDigits(month) && AllDigits(day)
    requires ValidDate(Date(DigitsValue(year), DigitsValue(month), DigitsValue(day)))
    ensures ParseDate(year + "-" + month + "-" + day) == Some(Date(DigitsValue(year), DigitsValue(month), DigitsValue(day)))
  {
    var s := year + "-" + month + "-" + day;
    assert s[..4] == year && s[5..7] == month && s[8..] == day;
  }

  /** A time assembled from its two digit fields parses to their values. */
  lemma ParseTimeOfFields(hour: string, minute: string)
    requires |hour| == 2 && |minute| == 2 && AllDigits(hour) && AllDigits(minute)
    requires ValidTime(Time(DigitsValue(hour), DigitsValue(minute)))
    ensures ParseTime(hour + ":" + minute) == Some(Time(DigitsValue(hour), DigitsValue(minute)))
  {
    var s := hour + ":" + minute;
    assert s[..2] == hour && s[3..] == minute;
  }

  lemma Year2025()
    ensures AllDigits("2025") && DigitsValue("2025") == 2025
  {
    DigitsValueSnoc("2", '0');
    assert "20" == "2" + ['0'];
    DigitsValueSnoc("20", '2');
    assert "202" == "20" + ['2'];
    DigitsValueSnoc("202", '5');
    assert "2025" == "202" + ['5'];
  }

  lemma TestStoreDate()
    ensures ParseDate("2025-02-24") == Some(Date(2025, 2, 24))
  {
    Year2025();
    DigitsValueSnoc("0", '2');
    assert "02" == "0" + ['2'];
    DigitsValueSnoc("2", '4');
    assert "24" == "2" + ['4'];
    assert "2025-02-24" == "2025" + "-" + "02" + "-" + "24";
    ParseDateOfFields("2025", "02", "24");
  }

  lemma TestStoreTime()
    ensures ParseTime("14:30") == Some(Time(14, 30))
  {
    DigitsValueSnoc("1", '4');
    assert "14" == "1" + ['4'];
    DigitsValueSnoc("3", '0');
    assert "30" == "3" + ['0'];
    assert "14:30" == "14" + ":" + "30";
    ParseTimeOfFields("14", "30");
  }

  lemma TestStoreFirstItem()
    ensures ValidateItem(RawItemOf("item1", "5.50")) == Success(Item("item1", 550))
  {
    assert ParseCents("5.50") == Some(550);
    TrimmedAlready("item1");
  }

  lemma TestStoreSecondItem()
    ensures ValidateItem(RawItemOf("item2", "3.00")) == Success(Item("item2", 300))
  {
    assert ParseCents("3.00") == Some(300);
    TrimmedAlready("item2");
  }

  lemma TwoItemsAccepted(a: RawItem, b: RawItem, x: Item, y: Item)
    requires ValidateItem(a) == Success(x) && ValidateItem(b) == Success(y)
    ensures ValidateItems([a, b]) == Success([x, y])
  {
    assert [a, b][1..] == [b];
    assert [b][1..] == [];
    assert ValidateItems([]) == Success([]);
    assert [y] + [] == [y];
    assert ValidateItems([b]) == Success([y]);
    assert [x] + [y] == [x, y];
  }

  lemma TwoObjects(a: RawItem, b: RawItem)
    ensures ItemObjects(ItemList([ItemObject(a), ItemObject(b)])) == Some([a, b])
  {
    assert [ItemObject(a), ItemObject(b)][1..] == [ItemObject(b)];
    assert [ItemObject(b)][1..] == [];
    assert [b] + [] == [b];
    assert ObjectsOf([ItemObject(b)]) == Some([b]);
    assert [a] + [b] == [a, b];
  }

  /** A document whose every check passes is accepted as the receipt its
      fields denote, and stored when its total matches. */
  lemma AcceptedFromChecks(doc: RawReceipt, total: nat, date: Date, time: Time, raws: seq<RawItem>, items: seq<Item>)
    requires AllPresent(doc) && NonBlank(doc.retailer.value)
    requires NonNegativeAmount(doc.total.value) == Some(total)
    requires ParseDate(doc.purchaseDate.value) == Some(date)
    requires ParseTime(doc.purchaseTime.value) == Some(time)
    requires ItemObjects(doc.items.value) == Some(raws)
    requires ValidateItems(raws) == Success(items)
    requires -1 <= total - PriceSum(items) <= 1
    ensures Process(JsonObject(doc)) == Success(Receipt(doc.retailer.value, date, time, items, total))
  {
    RequiredPresent(doc);
  }

  /** The same checks passing, but with a total more than a cent away from
      the item sum: the submission is refused with the mismatch message
      naming both amounts. */
  lemma MismatchFromChecks(doc: RawReceipt, total: nat, date: Date, time: Time, raws: seq<RawItem>, items: seq<Item>)
    requires AllPresent(doc) && NonBlank(doc.retailer.value)
    requires NonNegativeAmount(doc.total.value) == Some(total)
    requires ParseDate(doc.purchaseDate.value) == Some(date)
    requires ParseTime(doc.purchaseTime.value) == Some(time)
    requires ItemObjects(doc.items.value) == Some(raws)
    requires ValidateItems(raws) == Success(items)
    requires !(-1 <= total - PriceSum(items) <= 1)
    ensures Process(JsonObject(doc)).Failure?
    ensures ReadMismatch(Process(JsonObject(doc)).error) == Some((PriceSum(items) as int, total as int))
  {
    RequiredPresent(doc);
    assert Validate(doc) == Success(Receipt(doc.retailer.value, date, time, items, total));
  }

  lemma TwoPrices(x: Item, y: Item)
    ensures PriceSum([x, y]) == x.price + y.price
  {
    assert [x, y][1..] == [y];
    assert [y][1..] == [];
    assert SumBy([y], ItemPrice) == y.price;
  }

  /** The header fields of the tests' receipt pass their checks. */
  lemma TestStoreHeader()
    ensures AllPresent(TestStoreDoc()) && NonBlank(TestStoreDoc().retailer.value)
    ensures NonNegativeAmount(TestStoreDoc().total.value) == Some(850)
    ensures ParseDate(TestStoreDoc().purchaseDate.value) == Some(Date(2025, 2, 24))
    ensures ParseTime(TestStoreDoc().purchaseTime.value) == Some(Time(14, 30))
  {
    TrimmedAlready("Test Store");
    assert ParseCents("8.50") == Some(850);
    TestStoreDate();
    TestStoreTime();
  }

  /** The two items of the tests' receipt pass their checks. */
  lemma TestStoreItems()
    ensures ItemObjects(TestStoreDoc().items.value) == Some([RawItemOf("item1", "5.50"), RawItemOf("item2", "3.00")])
    ensures ValidateItems([RawItemOf("item1", "5.50"), RawItemOf("item2", "3.00")]) == Success(TestStoreReceipt().items)
  {
    TwoObjects(RawItemOf("item1", "5.50"), RawItemOf("item2", "3.00"));
    TestStoreFirstItem();
    TestStoreSecondItem();
    TwoItemsAccepted(RawItemOf("item1", "5.50"), RawItemOf("item2", "3.00"), Item("item1", 550), Item("item2", 300));
  }

  /** The tests' receipt is accepted and denotes the expected record. */
  lemma TestStoreAccepted()
    ensures Process(JsonObject(TestStoreDoc())) == Success(TestStoreReceipt())
  {
    var r := TestStoreReceipt();
    TestStoreHeader();
    TestStoreItems();
    TwoPrices(r.items[0], r.items[1]);
    AcceptedFromChecks(TestStoreDoc(), 850, Date(2025, 2, 24), Time(14, 30), [RawItemOf("item1", "5.50"), RawItemOf("item2", "3.00")], r.items);
  }

  /** A receipt shaped like the tests' one scores 49: nine letters and
      digits, a total of 8.50, two items earning no description bonus, an
      even day and an hour of 14. */
  lemma TestStoreShapeScores49(r: Receipt)
    requires AlnumCount(r.retailer) == 9 && r.total == 850
    requires |r.items| == 2 && DescriptionBonus(r.items[0]) == 0 && DescriptionBonus(r.items[1]) == 0
    requires r.purchaseDate.day == 24 && r.purchaseTime.hour == 14
    ensures CalculatePoints(r) == 49
  {
    assert |r.items[..0]| == 0;
    DescriptionPointsPrefix(r.items, 0);
    DescriptionPointsPrefix(r.items, 1);
    assert r.items[..2] == r.items;
  }

  /** Five-character descriptions earn no bonus. */
  lemma TestStoreBonuses()
    ensures DescriptionBonus(Item("item1", 550)) == 0 && DescriptionBonus(Item("item2", 300)) == 0
  {
    TrimmedAlready("item1");
    TrimmedAlready("item2");
  }

  lemma TestStoreRetailerCount()
    ensures AlnumCount("Test Store") == 9
  {
  }

  /** The tests' receipt header with any two items earning no description
      bonus scores 49. */
  lemma TestStoreScoresFrom(retailer: string, x: Item, y: Item)
    requires AlnumCount(retailer) == 9
    requires DescriptionBonus(x) == 0 && DescriptionBonus(y) == 0
    ensures CalculatePoints(Receipt(retailer, Date(2025, 2, 24), Time(14, 30), [x, y], 850)) == 49
  {
    var r := Receipt(retailer, Date(2025, 2, 24), Time(14, 30), [x, y], 850);
    assert r.items[0] == x && r.items[1] == y;
    TestStoreShapeScores49(r);
  }

  /** The tests' receipt scores 9 (retailer) + 0 + 25 (quarter) + 5 (one
      pair) + 0 + 0 + 10 (14:30) = 49. */
  lemma TestStoreScores49()
    ensures CalculatePoints(TestStoreReceipt()) == 49
  {
    TestStoreBonuses();
    TestStoreRetailerCount();
    TestStoreScoresFrom("Test Store", Item("item1", 550), Item("item2", 300));
  }

  /** The tests' document without a total (its item list is empty but
      present) is refused, naming the total. */
  function MissingTotalDoc(): RawReceipt {
    RawReceipt(Some("Test Store"), Some("2025-02-24"), Some("14:30"), Some(ItemList([])), None, 0)
  }

  lemma MissingTotalValidate()
    ensures Validate(MissingTotalDoc()) == Failure(MissingFieldMessage("total"))
  {
    var doc := MissingTotalDoc();
    assert RequiredFields[4] == "total";
    assert forall j :: 0 <= j < 4 ==> HasField(doc, RequiredFields[j]);
    ValidateReportsFirstMissingField(doc, 4);
  }

  lemma MissingTotalRejected()
    ensures Submit(map[], JsonObject(MissingTotalDoc()), "id") == (map[], ValidationError(MissingFieldMessage("total")))
  {
    MissingTotalValidate();
    assert !IsEmptyObject(MissingTotalDoc());
  }

  /** The tests' document with a price of -3.00 is refused with the price
      message, before its total is compared. */
  function NegativePriceDoc(): RawReceipt {
    RawReceipt(
      Some("Test Store"), Some("2025-02-24"), Some("14:30"),
      Some(ItemList([ItemObject(RawItemOf("item1", "5.50")), ItemObject(RawItemOf("item2", "-3.00"))])),
      Some("2.50"), 0)
  }

  lemma NegativePriceHeader()
    ensures HeaderAcceptable(NegativePriceDoc())
  {
    TrimmedAlready("Test Store");
    assert ParseCents("2.50") == Some(250);
    TestStoreDate();
    TestStoreTime();
  }

  lemma NegativePriceItems()
    ensures ItemObjects(NegativePriceDoc().items.value) == Some([RawItemOf("item1", "5.50"), RawItemOf("item2", "-3.00")])
    ensures NonBlank("item2") && ParseCents("-3.00") == Some(-300)
  {
    TwoObjects(RawItemOf("item1", "5.50"), RawItemOf("item2", "-3.00"));
    TrimmedAlready("item2");
    assert ParseCents("-3.00") == Some(-300);
  }

  /** A two-item document whose first item passes and whose second has a
      negative price is refused with the price message. */
  lemma SecondPriceNegative(doc: RawReceipt, a: RawItem, b: RawItem)
    requires HeaderAcceptable(doc)
    requires ItemObjects(doc.items.value) == Some([a, b])
    requires ValidateItem(a).Success?
    requires b.shortDescription.Some? && b.price.Some? && NonBlank(b.shortDescription.value)
    requires ParseCents(b.price.value).Some? && ParseCents(b.price.value).value < 0
    ensures Process(JsonObject(doc)) == Failure(InvalidPrice)
  {
    assert !IsEmptyObject(doc);
    ValidateRejectsNegativePrice(doc, 1);
  }

  lemma NegativePriceRejected()
    ensures Submit(map[], JsonObject(NegativePriceDoc()), "id") == (map[], ValidationError(InvalidPrice))
  {
    NegativePriceHeader();
    NegativePriceItems();
    TestStoreFirstItem();
    SecondPriceNegative(NegativePriceDoc(), RawItemOf("item1", "5.50"), RawItemOf("item2", "-3.00"));
  }

  /** The tests' document whose total 9.00 disagrees with 5.00 + 3.50. */
  function MismatchDoc(): RawReceipt {
    RawReceipt(
      Some("Test Store"), Some("2025-02-24"), Some("14:30"),
      Some(ItemList([ItemObject(RawItemOf("item1", "5.00")), ItemObject(RawItemOf("item2", "3.50"))])),
      Some("9.00"), 0)
  }

  lemma MismatchHeader()
    ensures AllPresent(MismatchDoc()) && NonBlank(MismatchDoc().retailer.value)
    ensures NonNegativeAmount(MismatchDoc().total.value) == Some(900)
    ensures ParseDate(MismatchDoc().purchaseDate.value) == Some(Date(2025, 2, 24))
    ensures ParseTime(MismatchDoc().purchaseTime.value) == Some(Time(14, 30))
  {
    TrimmedAlready("Test Store");
    assert ParseCents("9.00") == Some(900);
    TestStoreDate();
    TestStoreTime();
  }

  lemma MismatchFirstItem()
    ensures ValidateItem(RawItemOf("item1", "5.00")) == Success(Item("item1", 500))
  {
    assert ParseCents("5.00") == Some(500);
    TrimmedAlready("item1");
  }

  lemma MismatchSecondItem()
    ensures ValidateItem(RawItemOf("item2", "3.50")) == Success(Item("item2", 350))
  {
    assert ParseCents("3.50") == Some(350);
    TrimmedAlready("item2");
  }

  lemma MismatchItems()
    ensures ItemObjects(MismatchDoc().items.value) == Some([RawItemOf("item1", "5.00"), RawItemOf("item2", "3.50")])
    ensures ValidateItems([RawItemOf("item1", "5.00"), RawItemOf("item2", "3.50")]) == Success([Item("item1", 500), Item("item2", 350)])
  {
    TwoObjects(RawItemOf("item1", "5.00"), RawItemOf("item2", "3.50"));
    MismatchFirstItem();
    MismatchSecondItem();
    TwoItemsAccepted(RawItemOf("item1", "5.00"), RawItemOf("item2", "3.50"), Item("item1", 500), Item("item2", 350));
  }

  lemma MismatchRejected()
    ensures Process(JsonObject(MismatchDoc())).Failure?
    ensures ReadMismatch(Process(JsonObject(MismatchDoc())).error) == Some((850, 900))
  {
    var items := [Item("item1", 500), Item("item2", 350)];
    MismatchHeader();
    MismatchItems();
    TwoPrices(items[0], items[1]);
    MismatchFromChecks(MismatchDoc(), 900, Date(2025, 2, 24), Time(14, 30), [RawItemOf("item1", "5.00"), RawItemOf("item2", "3.50")], items);
  }

  /** Asking for an identifier that was never issued is answered with the
      not-found message. */
  lemma UnknownIdNotFound()
    ensures GetPoints(map[], "nonexistent_id") == NotFound(ReceiptNotFound)
  {
  }

  /** The documented example receipt: five items bought at Target at 13:01
      on 2022-01-01 for 35.35. */
  function TargetReceipt(): Receipt {
    Receipt("Target", Date(2022, 1, 1), Time(13, 1),
            [ Item("Mountain Dew 12PK", 649), Item("Emils Cheese Pizza", 1225),
              Item("Knorr Creamy Chicken", 126), Item("Doritos Nacho Cheese", 335),
              Item("   Klarbrunn 12-PK 12 FL OZ  ", 1200) ],
            3535)
  }

  /** The description points of five items are their five bonuses. */
  lemma FiveDescriptions(a: Item, b: Item, c: Item, d: Item, e: Item)
    ensures DescriptionPoints([a, b, c, d, e])
            == DescriptionBonus(a) + DescriptionBonus(b) + DescriptionBonus(c) + DescriptionBonus(d) + DescriptionBonus(e)
  {
    SumByFive(a, b, c, d, e, DescriptionBonus);
  }

  /** A sum over five elements, written out. */
  lemma SumByFive<T>(a: T, b: T, c: T, d: T, e: T, f: T -> nat)
    ensures SumBy([a, b, c, d, e], f) == f(a) + f(b) + f(c) + f(d) + f(e)
  {
    assert [e][1..] == [];
    assert SumBy([e], f) == f(e);
    assert [d, e][1..] == [e];
    assert SumBy([d, e], f) == f(d) + SumBy([e], f);
    assert [c, d, e][1..] == [d, e];
    assert SumBy([c, d, e], f) == f(c) + SumBy([d, e], f);
    assert [b, c, d, e][1..] == [c, d, e];
    assert SumBy([b, c, d, e], f) == f(b) + SumBy([c, d, e], f);
    assert [a, b, c, d, e][1..] == [b, c, d, e];
  }

  /** A receipt shaped like the documented one scores 28: six letters and
      digits, 35.35 earns no total bonus, five items make two pairs, the
      descriptions of trimmed length 18 and 24 earn ceil(12.25 / 5) = 3 and
      ceil(12.00 / 5) = 3, and the first of the month is odd. */
  lemma TargetShapeScores28(r: Receipt)
    requires AlnumCount(r.retailer) == 6 && r.total == 3535 && |r.items| == 5
    requires DescriptionPoints(r.items) == 6
    requires r.purchaseDate.day == 1 && r.purchaseTime.hour == 13
    ensures CalculatePoints(r) == 28
  {
  }

  /** The description bonuses of the documented receipt's items: only the
      descriptions of trimmed length 18 and 24 (the latter once its padding
      is removed) earn a bonus. */
  lemma TargetBonus0()
    ensures DescriptionBonus(Item("Mountain Dew 12PK", 649)) == 0
  {
    TrimmedAlready("Mountain Dew 12PK");
  }

  lemma TargetBonus1()
    ensures DescriptionBonus(Item("Emils Cheese Pizza", 1225)) == 3
  {
    TrimmedAlready("Emils Cheese Pizza");
  }

  lemma TargetBonus2()
    ensures DescriptionBonus(Item("Knorr Creamy Chicken", 126)) == 0
  {
    TrimmedAlready("Knorr Creamy Chicken");
  }

  lemma TargetBonus3()
    ensures DescriptionBonus(Item("Doritos Nacho Cheese", 335)) == 0
  {
    TrimmedAlready("Doritos Nacho Cheese");
  }

  lemma TargetPaddedTrim()
    ensures |Trim("   Klarbrunn 12-PK 12 FL OZ  ")| == 24
  {
    var t := "Klarbrunn 12-PK 12 FL OZ";
    assert |t| == 24 && t[0] == 'K' && t[23] == 'Z';
    assert "   Klarbrunn 12-PK 12 FL OZ  " == "   " + t + "  ";
    TrimPadded("   ", t, "  ");
  }

  lemma TargetBonus4()
    ensures DescriptionBonus(Item("   Klarbrunn 12-PK 12 FL OZ  ", 1200)) == 3
  {
    TargetPaddedTrim();
  }

  /** Any five items whose bonuses are those of the documented receipt's
      items earn 6 description points. */
  lemma TargetDescriptionsFrom(a: Item, b: Item, c: Item, d: Item, e: Item)
    requires DescriptionBonus(a) == 0 && DescriptionBonus(b) == 3 && DescriptionBonus(c) == 0
    requires DescriptionBonus(d) == 0 && DescriptionBonus(e) == 3
    ensures DescriptionPoints([a, b, c, d, e]) == 6
  {
    FiveDescriptions(a, b, c, d, e);
  }

  /** The documented receipt's header with any five items earning 6
      description points scores 28. */
  lemma TargetScoresFrom(retailer: string, xs: seq<Item>)
    requires AlnumCount(retailer) == 6
    requires |xs| == 5 && DescriptionPoints(xs) == 6
    ensures CalculatePoints(Receipt(retailer, Date(2022, 1, 1), Time(13, 1), xs, 3535)) == 28
  {
    TargetShapeScores28(Receipt(retailer, Date(2022, 1, 1), Time(13, 1), xs, 3535));
  }

  lemma TargetRetailerCount()
    ensures AlnumCount("Target") == 6
  {
  }

  /** The documented receipt's five items earn 6 description points. */
  lemma TargetDescriptions()
    ensures DescriptionPoints(TargetReceipt().items) == 6
  {
    TargetBonus0();
    TargetBonus1();
    TargetBonus2();
    TargetBonus3();
    TargetBonus4();
    TargetDescriptionsFrom(Item("Mountain Dew 12PK", 649), Item("Emils Cheese Pizza", 1225),
                           Item("Knorr Creamy Chicken", 126), Item("Doritos Nacho Cheese", 335),
                           Item("   Klarbrunn 12-PK 12 FL OZ  ", 1200));
  }

  /** The documented example receipt scores 6 + 0 + 0 + 10 + 3 + 3 + 6 + 0 = 28,
      the last description counting with its padding trimmed. */
  lemma TargetScores28()
    ensures CalculatePoints(TargetReceipt()) == 28
  {
    TargetDescriptions();
    TargetRetailerCount();
    TargetScoresFrom("Target", TargetReceipt().items);
  }
}

=== FILE: store.dfy ===
/** The receipt store and the two request handlers that use it, without the
    HTTP layer: submitting a document and asking for a receipt's points. */
module Store {
  import opened Wrappers
  import opened Receipts
  import opened Validation
  import opened Consistency
  import opened Points

  /** A request body: a JSON object, or any other JSON value. */
  datatype Body = JsonObject(doc: RawReceipt) | NotAnObject

  type ReceiptId = string

  /** The receipts held in memory, keyed by the identifiers handed out. */
  type ReceiptStore = map<ReceiptId, Receipt>

  /** Reply to a submission: the new identifier, or a validation error (400). */
  datatype SubmitReply = Created(id: ReceiptId) | ValidationError(message: string)

  /** Reply to a points query: the points, or not found (404). */
  datatype PointsReply = Found(points: nat) | NotFound(message: string)

  const InvalidJson: string := "Invalid JSON format"
  const ReceiptNotFound: string := "Receipt not found"

  /** An object with no keys at all, which the handler treats like a non-object. */
  predicate IsEmptyObject(doc: RawReceipt) {
    && doc.retailer.None? && doc.purchaseDate.None? && doc.purchaseTime.None?
    && doc.items.None? && doc.total.None? && doc.extraKeys == 0
  }

  /** Every stored receipt passed validation and the consistency check. */
  ghost predicate StoreInvariant(receipts: ReceiptStore) {
    forall id :: id in receipts ==> WellFormed(receipts[id]) && Consistent(receipts[id])
  }

  /** The body check, validation and the consistency check, in that order. */
  function Process(body: Body): (r: Result<Receipt, string>)
    ensures r.Success? ==> body.JsonObject? && Describes(body.doc, r.value)
    ensures r.Success? ==> WellFormed(r.value) && Consistent(r.value)
    ensures r.Success? <==> (body.JsonObject? && !IsEmptyObject(body.doc)
                             && Validate(body.doc).Success? && Consistent(Validate(body.doc).value))
    ensures body.NotAnObject? || IsEmptyObject(body.doc) ==> r == Failure(InvalidJson)
    ensures body.JsonObject? && !IsEmptyObject(body.doc) && Validate(body.doc).Failure?
            ==> r == Failure(Validate(body.doc).error)
    ensures && body.JsonObject? && !IsEmptyObject(body.doc) && Validate(body.doc).Success?
            && !Consistent(Validate(body.doc).value)
            ==> r == Failure(MismatchMessage(Validate(body.doc).value.items, Validate(body.doc).value.total))
  {
    if body.NotAnObject? || IsEmptyObject(body.doc) then Failure(InvalidJson)
    else
      var receipt :- Validate(body.doc);
      CheckTotal(receipt)
  }

  /** The submit handler: on success the receipt is stored under `id`, the
      identifier the caller drew, and nothing is stored otherwise. */
  function Submit(receipts: ReceiptStore, body: Body, id: ReceiptId): (res: (ReceiptStore, SubmitReply))
    ensures res.1.Created? <==> Process(body).Success?
    ensures res.1.Created? ==> res.1.id == id && id in res.0 && res.0[id] == Process(body).value
    ensures res.1.Created? ==> res.0.Keys == receipts.Keys + {id}
    ensures res.1.Created? ==> forall k :: k in receipts && k != id ==> res.0[k] == receipts[k]
    ensures res.1.ValidationError? ==> res.0 == receipts && res.1.message == Process(body).error
  {
    match Process(body)
    case Success(receipt) => (receipts[id := receipt], Created(id))
    case Failure(message) => (receipts, ValidationError(message))
  }

  /** The points handler: the score of the stored receipt, or not found. */
  function GetPoints(receipts: ReceiptStore, id: ReceiptId): (reply: PointsReply)
    ensures reply.NotFound? <==> id !in receipts
    ensures reply.NotFound? ==> reply.message == ReceiptNotFound
    ensures reply.Found? ==> reply.points == CalculatePoints(receipts[id])
  {
    if id !in receipts then NotFound(ReceiptNotFound) else Found(CalculatePoints(receipts[id]))
  }

  /** Only valid, consistent receipts are ever stored. */
  lemma SubmitPreservesInvariant(receipts: ReceiptStore, body: Body, id: ReceiptId)
    requires StoreInvariant(receipts)
    ensures StoreInvariant(Submit(receipts, body, id).0)
  {
    var after := Submit(receipts, body, id).0;
    if Process(body).Success? {
      var receipt := Process(body).value;
      assert after == receipts[id := receipt];
      assert WellFormed(receipt) && Consistent(receipt);
    } else {
      assert after == receipts;
    }
  }

  /** Submitting under a fresh identifier leaves every stored receipt as it
      was, and adds exactly one entry when the submission is accepted. */
  lemma SubmitKeepsEntries(receipts: ReceiptStore, body: Body, id: ReceiptId)
    requires id !in receipts
    ensures forall k :: k in receipts ==> (k in Submit(receipts, body, id).0
                                           && Submit(receipts, body, id).0[k] == receipts[k])
    ensures |Submit(receipts, body, id).0| == |receipts| + (if Process(body).Success? then 1 else 0)
  {
    var after := Submit(receipts, body, id).0;
    if Process(body).Success? {
      assert after.Keys == receipts.Keys + {id};
      assert |after.Keys| == |receipts.Keys| + 1;
    }
  }

  /** A submission changes no lookup but the one for its own identifier:
      every other identifier reports what it reported before, found or not. */
  lemma SubmitLeavesOtherLookups(receipts: ReceiptStore, body: Body, id: ReceiptId, other: ReceiptId)
    requires other != id
    ensures GetPoints(Submit(receipts, body, id).0, other) == GetPoints(receipts, other)
  {
  }

  /** A receipt just submitted can be looked up, and its points are its score. */
  lemma SubmitThenGetPoints(receipts: ReceiptStore, body: Body, id: ReceiptId)
    requires Process(body).Success?
    ensures GetPoints(Submit(receipts, body, id).0, id) == Found(CalculatePoints(Process(body).value))
  {
  }

  /** Submitting the same document twice under two identifiers stores it
      twice, and both identifiers report the same points. */
  lemma SubmitTwice(receipts: ReceiptStore, body: Body, first: ReceiptId, second: ReceiptId)
    requires Process(body).Success? && first != second
    ensures var after := Submit(Submit(receipts, body, first).0, body, second).0;
      && first in after && second in after
      && GetPoints(after, first) == GetPoints(after, second)
      && GetPoints(after, first).Found?
  {
  }
}

=== FILE: text.dfy ===
/** Character classes and string helpers the receipt rules are phrased in:
    whitespace trimming (`str.strip()` with no argument), the ASCII
    alphanumeric class `[a-zA-Z0-9]`, and searching for a character. */
module Text {

  /** The characters `str.isspace` accepts: ASCII whitespace, the ASCII
      separators 0x1C-0x1F, and the Unicode space separators and line breaks. */
  predicate IsSpace(c: char) {
    var n := c as int;
    || n == 0x20 || 0x09 <= n <= 0x0D || 0x1C <= n <= 0x1F
    || n == 0x85 || n == 0xA0 || n == 0x1680 || 0x2000 <= n <= 0x200A
    || n == 0x2028 || n == 0x2029 || n == 0x202F || n == 0x205F || n == 0x3000
  }

  predicate IsAsciiAlnum(c: char) {
    ('a' <= c <= 'z') || ('A' <= c <= 'Z') || ('0' <= c <= '9')
  }

  /** Length of the longest all-whitespace prefix. */
  function LeadingSpaces(s: string): (k: nat)
    ensures k <= |s|
    ensures forall i :: 0 <= i < k ==> IsSpace(s[i])
    ensures k < |s| ==> !IsSpace(s[k])
  {
    if |s| > 0 && IsSpace(s[0]) then 1 + LeadingSpaces(s[1..]) else 0
  }

  /** Length of the longest all-whitespace suffix. */
  function TrailingSpaces(s: string): (k: nat)
    ensures k <= |s|
    ensures forall i :: |s| - k <= i < |s| ==> IsSpace(s[i])
    ensures k < |s| ==> !IsSpace(s[|s| - 1 - k])
  {
    if |s| > 0 && IsSpace(s[|s| - 1]) then 1 + TrailingSpaces(s[..|s| - 1]) else 0
  }

  /** `s` with whitespace removed from both ends. It is empty exactly when
      `s` is all whitespace, and otherwise starts and ends on a
      non-whitespace character of `s`. */
  function Trim(s: string): (t: string)
    ensures |t| <= |s|
    ensures |t| == 0 <==> forall i :: 0 <= i < |s| ==> IsSpace(s[i])
    ensures |t| > 0 ==> !IsSpace(t[0]) && !IsSpace(t[|t| - 1])
    ensures LeadingSpaces(s) + |t| <= |s| && t == s[LeadingSpaces(s)..LeadingSpaces(s) + |t|]
  {
    var lead := LeadingSpaces(s);
    var rest := s[lead..];
    rest[..|rest| - TrailingSpaces(rest)]
  }

  /** A string that starts and ends on non-whitespace is its own trimming. */
  lemma TrimmedAlready(s: string)
    requires |s| > 0 && !IsSpace(s[0]) && !IsSpace(s[|s| - 1])
    ensures Trim(s) == s
  {
    assert LeadingSpaces(s) == 0;
    assert s[0..] == s;
    assert TrailingSpaces(s) == 0;
  }

  /** The whitespace prefix is exactly a leading run of spaces followed by
      a non-space (or nothing). */
  lemma {:induction false} LeadingSpacesOf(pre: string, rest: string)
    requires forall i :: 0 <= i < |pre| ==> IsSpace(pre[i])
    requires |rest| > 0 ==> !IsSpace(rest[0])
    ensures LeadingSpaces(pre + rest) == |pre|
  {
    if |pre| > 0 {
      assert (pre + rest)[0] == pre[0];
      assert (pre + rest)[1..] == pre[1..] + rest;
      LeadingSpacesOf(pre[1..], rest);
    } else {
      assert pre + rest == rest;
    }
  }

  /** The whitespace suffix is exactly a trailing run of spaces preceded by
      a non-space (or nothing). */
  lemma {:induction false} TrailingSpacesOf(rest: string, post: string)
    requires forall i :: 0 <= i < |post| ==> IsSpace(post[i])
    requires |rest| > 0 ==> !IsSpace(rest[|rest| - 1])
    ensures TrailingSpaces(rest + post) == |post|
  {
    if |post| > 0 {
      var s := rest + post;
      assert s[|s| - 1] == post[|post| - 1];
      assert s[..|s| - 1] == rest + post[..|post| - 1];
      TrailingSpacesOf(rest, post[..|post| - 1]);
    } else {
      assert rest + post == rest;
    }
  }

  /** Trimming removes exactly the surrounding whitespace: padding a string
      that starts and ends on non-whitespace with whitespace on either side
      and trimming gives the string back. */
  lemma TrimPadded(pre: string, t: string, post: string)
    requires forall i :: 0 <= i < |pre| ==> IsSpace(pre[i])
    requires forall i :: 0 <= i < |post| ==> IsSpace(post[i])
    requires |t| > 0 && !IsSpace(t[0]) && !IsSpace(t[|t| - 1])
    ensures Trim(pre + t + post) == t
  {
    var s := pre + t + post;
    assert s == pre + (t + post);
    assert (t + post)[0] == t[0];
    LeadingSpacesOf(pre, t + post);
    assert s[|pre|..] == t + post;
    TrailingSpacesOf(t, post);
    assert (t + post)[..|t|] == t;
  }

  /** The truth value of `s.strip()`: some character is not whitespace. */
  predicate NonBlank(s: string) {
    |Trim(s)| > 0
  }

  /** Number of matches of `[a-zA-Z0-9]` in `s`. */
  function AlnumCount(s: string): (n: nat)
    ensures n <= |s|
    ensures n == |s| <==> forall i :: 0 <= i < |s| ==> IsAsciiAlnum(s[i])
    ensures n == 0 <==> forall i :: 0 <= i < |s| ==> !IsAsciiAlnum(s[i])
  {
    if |s| == 0 then 0
    else (if IsAsciiAlnum(s[0]) then 1 else 0) + AlnumCount(s[1..])
  }

  /** Counting matches distributes over concatenation. */
  lemma {:induction false} AlnumCountAppend(s: string, t: string)
    ensures AlnumCount(s + t) == AlnumCount(s) + AlnumCount(t)
  {
    if |s| > 0 {
      assert (s + t)[0] == s[0];
      assert (s + t)[1..] == s[1..] + t;
      AlnumCountAppend(s[1..], t);
    } else {
      assert s + t == t;
    }
  }

  /** Position of the first `c` in `s`, or `|s|` when there is none. */
  function IndexOf(s: string, c: char): (k: nat)
    ensures k <= |s|
    ensures forall i :: 0 <= i < k ==> s[i] != c
    ensures k < |s| ==> s[k] == c
  {
    if |s| == 0 then 0 else if s[0] == c then 0 else 1 + IndexOf(s[1..], c)
  }

  /** The first `c` in `a + [c] + b` is the one right after `a` when `a` has none. */
  lemma {:induction false} IndexOfAfter(a: string, c: char, b: string)
    requires forall i :: 0 <= i < |a| ==> a[i] != c
    ensures IndexOf(a + [c] + b, c) == |a|
  {
    if |a| > 0 {
      assert (a + [c] + b)[0] == a[0];
      assert (a + [c] + b)[1..] == a[1..] + [c] + b;
      IndexOfAfter(a[1..], c, b);
    }
  }
}

=== FILE: validation.dfy ===
/** The receipt validator: a fail-fast chain of checks over a submitted
    document, reporting the first violated constraint by its message. */
module Validation {
  import opened Wrappers
  import opened Text
  import opened Money
  import opened Calendar
  import opened Receipts

  /** The keys a receipt must have, in the order their absence is checked. */
  const RequiredFields: seq<string> := ["retailer", "purchaseDate", "purchaseTime", "items", "total"]

  function MissingFieldMessage(field: string): string {
    "Missing required field: " + field
  }

  const InvalidRetailer: string := "Invalid retailer name"
  const InvalidTotal: string := "Invalid total format"
  const InvalidDate: string := "Invalid purchaseDate format, expected YYYY-MM-DD"
  const InvalidTime: string := "Invalid purchaseTime format, expected HH:MM"
  const ItemsNotObjects: string := "Items should be a list of objects"
  const ItemKeysMissing: string := "Each item must have 'shortDescription' and 'price'"
  const InvalidDescription: string := "Invalid shortDescription in items"
  const InvalidPrice: string := "Invalid price format in items"

  /** The messages a single item can be rejected with. */
  const ItemMessages: set<string> := {ItemKeysMissing, InvalidDescription, InvalidPrice}

  /** The messages for an absent key. */
  const MissingFieldMessages: set<string> := set f | f in RequiredFields :: MissingFieldMessage(f)

  /** Every message validation can report. */
  const ValidationMessages: set<string> :=
    MissingFieldMessages
    + {InvalidRetailer, InvalidTotal, InvalidDate, InvalidTime, ItemsNotObjects}
    + ItemMessages

  /** Whether the document has the key `field`. */
  predicate HasField(doc: RawReceipt, field: string) {
    if field == "retailer" then doc.retailer.Some?
    else if field == "purchaseDate" then doc.purchaseDate.Some?
    else if field == "purchaseTime" then doc.purchaseTime.Some?
    else if field == "items" then doc.items.Some?
    else if field == "total" then doc.total.Some?
    else false
  }

  /** The first of `fields` the document lacks. */
  function FirstMissing(doc: RawReceipt, fields: seq<string>): (r: Option<string>)
    ensures r.None? <==> forall i :: 0 <= i < |fields| ==> HasField(doc, fields[i])
    ensures r.Some? ==> r.value in fields && !HasField(doc, r.value)
  {
    if |fields| == 0 then None
    else if !HasField(doc, fields[0]) then Some(fields[0])
    else FirstMissing(doc, fields[1..])
  }

  predicate AllPresent(doc: RawReceipt) {
    doc.retailer.Some? && doc.purchaseDate.Some? && doc.purchaseTime.Some?
    && doc.items.Some? && doc.total.Some?
  }

  lemma RequiredPresent(doc: RawReceipt)
    ensures FirstMissing(doc, RequiredFields).None? <==> AllPresent(doc)
  {
    if FirstMissing(doc, RequiredFields).None? {
      assert HasField(doc, RequiredFields[0]);
      assert HasField(doc, RequiredFields[1]);
      assert HasField(doc, RequiredFields[2]);
      assert HasField(doc, RequiredFields[3]);
      assert HasField(doc, RequiredFields[4]);
    }
  }

  /** The amount in a `try: float(x); if x < 0: raise` block: present only
      when the text parses and is not negative. */
  function NonNegativeAmount(s: string): (r: Option<nat>)
    ensures r.Some? <==> ParseCents(s).Some? && ParseCents(s).value >= 0
    ensures r.Some? ==> ParseCents(s) == Some(r.value as int)
  {
    match ParseCents(s)
    case Some(c) => if c >= 0 then Some(c) else None
    case None => None
  }

  /** The objects of a submitted list, when every element is an object. */
  function ObjectsOf(entries: seq<RawEntry>): (r: Option<seq<RawItem>>)
    ensures r.Some? <==> forall i :: 0 <= i < |entries| ==> entries[i].ItemObject?
    ensures r.Some? ==> |r.value| == |entries|
    ensures r.Some? ==> forall i :: 0 <= i < |entries| ==> entries[i] == ItemObject(r.value[i])
  {
    if |entries| == 0 then Some([])
    else match entries[0]
      case NotAnObject => None
      case ItemObject(first) =>
        match ObjectsOf(entries[1..])
        case None => None
        case Some(rest) => Some([first] + rest)
  }

  function ItemObjects(items: RawItems): Option<seq<RawItem>> {
    match items
    case NotAList => None
    case ItemList(entries) => ObjectsOf(entries)
  }

  /** An item passes its checks: both keys, a non-blank description and a
      price that is a non-negative amount. */
  predicate ItemAcceptable(raw: RawItem) {
    && raw.shortDescription.Some? && raw.price.Some?
    && NonBlank(raw.shortDescription.value)
    && ParseCents(raw.price.value).Some? && ParseCents(raw.price.value).value >= 0
  }

  /** `it` holds what `raw` says: the same description and the price it reads as. */
  predicate ItemDenotes(raw: RawItem, it: Item) {
    && raw.shortDescription == Some(it.shortDescription)
    && raw.price.Some? && ParseCents(raw.price.value) == Some(it.price as int)
  }

  /** The checks on one item, in order: keys, description, price. */
  function ValidateItem(raw: RawItem): (r: Result<Item, string>)
    ensures r.Success? <==> ItemAcceptable(raw)
    ensures r.Success? ==> ItemDenotes(raw, r.value)
    ensures r.Failure? ==> r.error in ItemMessages
    ensures r == Failure(ItemKeysMissing) <==> raw.shortDescription.None? || raw.price.None?
    ensures r == Failure(InvalidDescription)
            <==> raw.shortDescription.Some? && raw.price.Some? && !NonBlank(raw.shortDescription.value)
    ensures r == Failure(InvalidPrice)
            <==> && raw.shortDescription.Some? && raw.price.Some? && NonBlank(raw.shortDescription.value)
                 && !(ParseCents(raw.price.value).Some? && ParseCents(raw.price.value).value >= 0)
  {
    if raw.shortDescription.None? || raw.price.None? then Failure(ItemKeysMissing)
    else if !NonBlank(raw.shortDescription.value) then Failure(InvalidDescription)
    else match NonNegativeAmount(raw.price.value)
      case None => Failure(InvalidPrice)
      case Some(price) => Success(Item(raw.shortDescription.value, price))
  }

  /** The items checked one after another; the first failing item decides. */
  function ValidateItems(raws: seq<RawItem>): (r: Result<seq<Item>, string>)
    ensures r.Success? <==> forall i :: 0 <= i < |raws| ==> ItemAcceptable(raws[i])
    ensures r.Success? ==> |r.value| == |raws|
    ensures r.Success? ==> forall i :: 0 <= i < |raws| ==> ItemDenotes(raws[i], r.value[i])
    ensures r.Failure? ==> r.error in ItemMessages
  {
    if |raws| == 0 then Success([])
    else
      var first :- ValidateItem(raws[0]);
      var rest :- ValidateItems(raws[1..]);
      Success([first] + rest)
  }

  /** An accepted item followed by accepted items is accepted item by item. */
  lemma ValidateItemsCons(first: RawItem, rest: seq<RawItem>)
    requires ValidateItem(first).Success? && ValidateItems(rest).Success?
    ensures ValidateItems([first] + rest) == Success([ValidateItem(first).value] + ValidateItems(rest).value)
  {
    assert ([first] + rest)[0] == first;
    assert ([first] + rest)[1..] == rest;
  }

  /** `r` holds what `doc` says, field by field. */
  predicate Describes(doc: RawReceipt, r: Receipt) {
    && doc.retailer == Some(r.retailer)
    && doc.total.Some? && ParseCents(doc.total.value) == Some(r.total as int)
    && doc.purchaseDate.Some? && ParseDate(doc.purchaseDate.value) == Some(r.purchaseDate)
    && doc.purchaseTime.Some? && ParseTime(doc.purchaseTime.value) == Some(r.purchaseTime)
    && doc.items.Some? && doc.items.value.ItemList?
    && |doc.items.value.entries| == |r.items|
    && forall i :: 0 <= i < |r.items| ==>
         doc.items.value.entries[i].ItemObject?
         && ItemDenotes(doc.items.value.entries[i].fields, r.items[i])
  }

  /** The checks that precede the items checks all pass. */
  predicate HeaderAcceptable(doc: RawReceipt) {
    && AllPresent(doc)
    && NonBlank(doc.retailer.value)
    && NonNegativeAmount(doc.total.value).Some?
    && ParseDate(doc.purchaseDate.value).Some?
    && ParseTime(doc.purchaseTime.value).Some?
  }

  /** Every constraint on a document holds, stated without an order. */
  ghost predicate Acceptable(doc: RawReceipt) {
    && HeaderAcceptable(doc)
    && doc.items.value.ItemList?
    && forall i :: 0 <= i < |doc.items.value.entries| ==>
         doc.items.value.entries[i].ItemObject?
         && ItemAcceptable(doc.items.value.entries[i].fields)
  }

  /** The validator. Checks run in this order and the first failure is
      reported: required keys (in `RequiredFields` order), retailer, total,
      purchase date, purchase time, shape of `items`, then each item. */
  function Validate(doc: RawReceipt): (r: Result<Receipt, string>)
    ensures r.Success? ==> WellFormed(r.value) && Describes(doc, r.value)
    ensures r.Failure? ==> r.error in ValidationMessages
    ensures !AllPresent(doc) ==> r.Failure? && r.error in MissingFieldMessages
    ensures AllPresent(doc) && !NonBlank(doc.retailer.value) ==> r == Failure(InvalidRetailer)
    ensures && AllPresent(doc) && NonBlank(doc.retailer.value)
            && !(ParseCents(doc.total.value).Some? && ParseCents(doc.total.value).value >= 0)
            ==> r == Failure(InvalidTotal)
    ensures && AllPresent(doc) && NonBlank(doc.retailer.value)
            && ParseCents(doc.total.value).Some? && ParseCents(doc.total.value).value >= 0
            && ParseDate(doc.purchaseDate.value).None?
            ==> r == Failure(InvalidDate)
    ensures && AllPresent(doc) && NonBlank(doc.retailer.value)
            && ParseCents(doc.total.value).Some? && ParseCents(doc.total.value).value >= 0
            && ParseDate(doc.purchaseDate.value).Some? && ParseTime(doc.purchaseTime.value).None?
            ==> r == Failure(InvalidTime)
    ensures && HeaderAcceptable(doc)
            && !(doc.items.value.ItemList?
                 && forall i :: 0 <= i < |doc.items.value.entries| ==> doc.items.value.entries[i].ItemObject?)
            ==> r == Failure(ItemsNotObjects)
  {
    RequiredPresent(doc);
    var missing := FirstMissing(doc, RequiredFields);
    if missing.Some? then Failure(MissingFieldMessage(missing.value))
    else
      var retailer := doc.retailer.value;
      if !NonBlank(retailer) then Failure(InvalidRetailer)
      else
        var total :- NonNegativeAmount(doc.total.value).ToResult(InvalidTotal);
        var date :- ParseDate(doc.purchaseDate.value).ToResult(InvalidDate);
        var time :- ParseTime(doc.purchaseTime.value).ToResult(InvalidTime);
        var raws :- ItemObjects(doc.items.value).ToResult(ItemsNotObjects);
        var items :- ValidateItems(raws);
        Success(Receipt(retailer, date, time, items, total))
  }

  /** The validator accepts exactly the documents meeting every constraint,
      whatever order the constraints are read in. */
  lemma ValidateAcceptsExactly(doc: RawReceipt)
    ensures Validate(doc).Success? <==> Acceptable(doc)
  {
    RequiredPresent(doc);
    if HeaderAcceptable(doc) {
      ValidateOfHeader(doc);
      ItemListAcceptable(doc.items.value);
    }
  }

  /** Once the header passes, the outcome is decided by the items alone. */
  lemma ValidateOfHeader(doc: RawReceipt)
    requires HeaderAcceptable(doc)
    ensures Validate(doc).Success?
            <==> ItemObjects(doc.items.value).Some? && ValidateItems(ItemObjects(doc.items.value).value).Success?
  {
    RequiredPresent(doc);
  }

  /** The item list passes exactly when it is a list of objects each of
      which passes. */
  lemma ItemListAcceptable(items: RawItems)
    ensures (ItemObjects(items).Some? && ValidateItems(ItemObjects(items).value).Success?)
            <==> (items.ItemList?
                  && forall i :: 0 <= i < |items.entries| ==>
                       items.entries[i].ItemObject? && ItemAcceptable(items.entries[i].fields))
  {
    if items.ItemList? && ObjectsOf(items.entries).Some? {
      var objects := ObjectsOf(items.entries).value;
      assert forall i :: 0 <= i < |items.entries| ==> items.entries[i].fields == objects[i];
    }
  }

  /** A missing key is reported before anything else is looked at: the
      first absent key in `RequiredFields` order names the message. */
  lemma ValidateReportsFirstMissingField(doc: RawReceipt, i: nat)
    requires i < |RequiredFields| && !HasField(doc, RequiredFields[i])
    requires forall j :: 0 <= j < i ==> HasField(doc, RequiredFields[j])
    ensures Validate(doc) == Failure(MissingFieldMessage(RequiredFields[i]))
  {
    FirstMissingIsFirst(doc, RequiredFields, i);
  }

  lemma {:induction false} FirstMissingIsFirst(doc: RawReceipt, fields: seq<string>, i: nat)
    requires i < |fields| && !HasField(doc, fields[i])
    requires forall j :: 0 <= j < i ==> HasField(doc, fields[j])
    ensures FirstMissing(doc, fields) == Some(fields[i])
  {
    if i > 0 {
      FirstMissingIsFirst(doc, fields[1..], i - 1);
    }
  }

  /** A negative total is reported as a format error: the "cannot be
      negative" exception is caught by the handler around it. */
  lemma ValidateRejectsNegativeTotal(doc: RawReceipt)
    requires AllPresent(doc) && NonBlank(doc.retailer.value)
    requires ParseCents(doc.total.value).Some? && ParseCents(doc.total.value).value < 0
    ensures Validate(doc) == Failure(InvalidTotal)
  {
    RequiredPresent(doc);
  }

  /** Among the items, the first one that fails its checks names the message. */
  lemma {:induction false} ValidateItemsReportsFirstFailure(raws: seq<RawItem>, i: nat)
    requires i < |raws| && !ItemAcceptable(raws[i])
    requires forall j :: 0 <= j < i ==> ItemAcceptable(raws[j])
    ensures ValidateItems(raws) == Failure(ValidateItem(raws[i]).error)
  {
    if i > 0 {
      ValidateItemsReportsFirstFailure(raws[1..], i - 1);
    }
  }

  /** Once the header checks and the shape check pass, the first failing
      item decides the message of the whole document. */
  lemma ValidateReportsFirstBadItem(doc: RawReceipt, i: nat)
    requires HeaderAcceptable(doc)
    requires ItemObjects(doc.items.value).Some?
    requires i < |ItemObjects(doc.items.value).value|
    requires !ItemAcceptable(ItemObjects(doc.items.value).value[i])
    requires forall j :: 0 <= j < i ==> ItemAcceptable(ItemObjects(doc.items.value).value[j])
    ensures Validate(doc) == Failure(ValidateItem(ItemObjects(doc.items.value).value[i]).error)
  {
    RequiredPresent(doc);
    ValidateItemsReportsFirstFailure(ItemObjects(doc.items.value).value, i);
  }

  /** A negative item price is reported as a format error, for the same
      reason as a negative total. */
  lemma ValidateRejectsNegativePrice(doc: RawReceipt, i: nat)
    requires HeaderAcceptable(doc)
    requires ItemObjects(doc.items.value).Some?
    requires i < |ItemObjects(doc.items.value).value|
    requires forall j :: 0 <= j < i ==> ItemAcceptable(ItemObjects(doc.items.value).value[j])
    requires var raw := ItemObjects(doc.items.value).value[i];
      && raw.shortDescription.Some? && raw.price.Some? && NonBlank(raw.shortDescription.value)
      && ParseCents(raw.price.value).Some? && ParseCents(raw.price.value).value < 0
    ensures Validate(doc) == Failure(InvalidPrice)
  {
    ValidateReportsFirstBadItem(doc, i);
  }
}

=== FILE: wrappers.dfy ===
/** Failure-compatible wrappers used for the validation chain: an optional
    value and a value-or-error result, both usable with `:-`. */
module Wrappers {

  datatype Option<+T> = None | Some(value: T) {

    /** Turns a missing value into a failure carrying `error`. */
    function ToResult<E>(error: E): Result<T, E> {
      match this
      case Some(v) => Success(v)
      case None => Failure(error)
    }
  }

  datatype Result<+T, +E> = Success(value: T) | Failure(error: E) {

    predicate IsFailure() {
      Failure?
    }

    function PropagateFailure<U>(): Result<U, E>
      requires Failure?
    {
      Failure(error)
    }

    function Extract(): T
      requires Success?
    {
      value
    }
  }
}
